=== FILE: README.md ===
# Multi-store inventory tracker — a Dafny model

This project models the logic of the inventory tracker. The tracker is a single-page app, and everything the model covers lives in two React components:

- **The inventory session** (`src/components/InventoryTracker.jsx`) holds five pieces of state:
  - the item list,
  - the append-only action log,
  - the logged-in user,
  - the selected store,
  - the sort configuration.

  Its event handlers update this state. It also derives the item table, the category list, the role-scoped activity log, the low-stock list, the total value and the role capabilities.
- **The analytics dashboard** (`src/components/AnalyticsDashboard.jsx`) gets the visible item list. From it, the dashboard computes:
  - per-category cost, revenue and margin;
  - the average margin;
  - the five best-stocked items;
  - the turnover ranking;
  - the total inventory value.

The modules follow the program's structure:

| file | module | contents |
|---|---|---|
| `wrappers.dfy` | `Wrappers` | `Option` |
| `seqs.dfy` | `Seqs` | `filter`, first occurrences, `[...new Set(xs)]` |
| `text.dfy` | `Text` | `toLowerCase`, `includes`, string `>` |
| `sorting.dfy` | `Sorting` | one stable sort, parameterised by the comparator's "may stay before" relation |
| `directory.dfy` | `Directory` | the `USERS` and `STORES` tables, the default store, role capabilities |
| `items.dfy` | `Items` | items, the seed list, the `addStock` and `updatePrice` list rebuilds, the new-item record, the value fold |
| `audit_log.dfy` | `AuditLog` | log entries, what each handler logs, the role-scoped view of the log |
| `query.dfy` | `Query` | the item table's filter and sort, the sort toggle, categories, low stock |
| `session.dfy` | `Tracker` | class `Session`: the five state fields and the handlers as methods |
| `analytics.dfy` | `Analytics` | the dashboard figures |

How the model represents the program:

- **Handlers.** Each handler is a method of `Tracker.Session` and runs to completion on one event. `addStock` and `updatePrice` are loops over the item list: each step runs the map callback, which may append a log entry. The methods are proved against the pure rebuilds `Items.AdjustQuantity` and `Items.Reprice`, and against the entries `Tracker.StockUpdates` and `Tracker.PriceUpdates` that they log.
- **`categoryMargins`.** This is a loop that fills a keyed dictionary. The method `Analytics.CategoryMargins` models the dictionary as a `map` plus the list of its keys in insertion order. The method is proved equal to a left fold, `Analytics.Groups`. The fold in turn is proved equal to a per-category summary, taken in order of first occurrence (`Analytics.GroupsByCategory`).
- **Numbers.** Prices, costs, margins and rates are exact `real`s.
- **Parsing.** Results of `parseFloat` and `parseInt` arrive as inputs: `Option<real>` for a new price, where `None` stands for NaN, and plain numbers for a new item.
- **Outside inputs.** The fresh `Date.now()` id and the ISO timestamp are parameters. So are the saved item list and log read at start-up.
  - Each `logAction` call reads the clock on its own. The model passes one timestamp per handler, so every entry a single `addStock` or `updatePrice` writes carries the same time.

## Model

| member | source | states |
|---|---|---|
| Directory.Credentials | src/components/InventoryTracker.jsx:191 | an entry matches when both its user name and its password equal the typed text exactly |
| Directory.FindUser | src/components/InventoryTracker.jsx:190-192 | no user exactly when no entry matches both the name and the password; otherwise the first entry that matches both |
| Directory.DirectoryWellFormed | src/components/InventoryTracker.jsx:5-45 | in the user table, the owner and only the owner has no store of its own, and every user's store is a listed store |
| Directory.KnownStore | src/components/InventoryTracker.jsx:117-121 | the ids the store selector offers: those of the listed stores |
| Directory.DefaultStore | src/components/InventoryTracker.jsx:158-166 | on login, the owner gets the first store and anyone else gets their own store |
| Directory.LoginSelectsStore | src/components/InventoryTracker.jsx:193-197 | every successful login leaves a listed store selected |
| Directory.StoreName | src/components/InventoryTracker.jsx:240 | a name exactly when a store has the id, and then that store's name |
| Directory.CanSelectStore | src/components/InventoryTracker.jsx:107 | the store selector is shown to the owner only |
| Directory.CanEditPrice | src/components/InventoryTracker.jsx:310 | true exactly for the owner and for managers |
| Directory.CanExport | src/components/InventoryTracker.jsx:311 | true exactly for the owner and for managers |
| Text.Lower | src/components/InventoryTracker.jsx:294 | same length; each ASCII capital becomes its lower-case letter and every other character is kept |
| Text.LowerChar | src/components/InventoryTracker.jsx:294 | `toLowerCase` on one character: an ASCII capital becomes its lower-case letter, anything else is kept |
| Text.Contains | src/components/InventoryTracker.jsx:294 | `includes`: the search text occurs somewhere in the name as a contiguous run |
| Text.ContainsEmpty | src/components/InventoryTracker.jsx:294 | an empty search text matches every name |
| Text.LexLe | src/components/InventoryTracker.jsx:300 | `!(a > b)` on strings: the first differing character decides, and a proper prefix comes first |
| Text.LexLeTotal | src/components/InventoryTracker.jsx:300 | any two strings are ordered one way or the other |
| Text.LexLeTransitive | src/components/InventoryTracker.jsx:300 | the string order is transitive |
| Seqs.Filter | src/components/InventoryTracker.jsx:292-296 | the result is no longer than the input, and every element kept passes the test |
| Seqs.FilterMultiset | src/components/InventoryTracker.jsx:292-296 | each passing value is kept exactly as often as it occurs; no failing value is kept |
| Seqs.FilterSubsequence | src/components/InventoryTracker.jsx:292-296 | the kept elements stay in input order |
| Seqs.FilterIdempotent | src/components/InventoryTracker.jsx:292-296 | filtering twice gives the same result as filtering once |
| Seqs.FilterAll | src/components/InventoryTracker.jsx:292-296 | a list whose elements all pass is its own filter |
| Seqs.FilterSnoc | src/components/InventoryTracker.jsx:292-296 | one more element at the end extends the result by that element exactly when it passes |
| Seqs.FirstIndex | src/components/InventoryTracker.jsx:290 | the position of the first occurrence of a value |
| Seqs.Dedup | src/components/InventoryTracker.jsx:290 | no value twice; exactly the values of the input |
| Seqs.DedupOrder | src/components/InventoryTracker.jsx:290 | values appear in the order of their first occurrences |
| Sorting.Sort | src/components/AnalyticsDashboard.jsx:31 | same length, and a permutation of the input |
| Sorting.SortSorted | src/components/AnalyticsDashboard.jsx:31 | with a consistent comparator, every element may stay before each later one |
| Sorting.SortOfSorted | src/components/AnalyticsDashboard.jsx:31 | an ordered list is returned unchanged |
| Sorting.SortStable | src/components/AnalyticsDashboard.jsx:31 | elements that compare equal keep their input order |
| Sorting.SortAgree | src/components/AnalyticsDashboard.jsx:43 | two comparators that agree on the elements present give the same result |
| Items.SeedItemsUniqueIds | src/components/InventoryTracker.jsx:133-139 | the five seed items have distinct ids |
| Items.SeedItemsInListedStores | src/components/InventoryTracker.jsx:133-139 | every seed item belongs to a listed store |
| Items.Clamp | src/components/InventoryTracker.jsx:221 | `Math.max(0, n)` |
| Items.LineValue | src/components/InventoryTracker.jsx:308 | one item's quantity times its price, the term the total value and the category revenue add up (also AnalyticsDashboard.jsx:19 and 57) |
| Items.StockValue | src/components/InventoryTracker.jsx:308 | 0 for no items; never negative when no quantity or price is negative |
| Items.StockValueAppend | src/components/AnalyticsDashboard.jsx:56-58 | the value of two lists joined is the sum of their values |
| Items.StockValuePermutation | src/components/InventoryTracker.jsx:308 | the value does not depend on the order of the items |
| Items.AdjustOne | src/components/InventoryTracker.jsx:219-225 | the map callback of `addStock`: the matching item with its quantity floored at 0 after adding the amount; any other item as it is; its logging is stated by `Tracker.StockActionRecordsChange` |
| Items.AdjustQuantity | src/components/InventoryTracker.jsx:218-227 | same length; non-matching items unchanged; a matching item changes only its quantity, to max(0, quantity + amount), never negative; an unknown id leaves the list as it was |
| Items.AdjustQuantityUndo | src/components/InventoryTracker.jsx:221 | when the floor of 0 is not reached, the opposite adjustment restores the list |
| Items.NewPrice | src/components/InventoryTracker.jsx:248 | the parsed price unless it is NaN or zero, in which case the current price is kept |
| Items.RepriceOne | src/components/InventoryTracker.jsx:246-252 | the map callback of `updatePrice`: the matching item with price `NewPrice`; any other item as it is; its logging is stated by `Tracker.PriceActionRecordsChange` |
| Items.Reprice | src/components/InventoryTracker.jsx:245-254 | same length; non-matching items unchanged; a matching item changes only its price, to `NewPrice`; NaN, zero or an unknown id leave the list as it was |
| Items.RepriceIdempotent | src/components/InventoryTracker.jsx:245-254 | entering the same price twice has the effect of entering it once |
| Items.Complete | src/components/InventoryTracker.jsx:230 | the guard of `handleAddItem`: all five fields are non-empty text |
| Items.MakeItem | src/components/InventoryTracker.jsx:231-238 | the new record carries the form's name and category, the parsed numbers, the fresh id, the selected store, and no cost |
| AuditLog.LoginScope | src/components/InventoryTracker.jsx:203 | the user's store when it has one that is not 0, otherwise "all" |
| AuditLog.LoginScopeOfDirectory | src/components/InventoryTracker.jsx:203 | for the user table: "all" for the owner, and otherwise the user's own store |
| AuditLog.Kind | src/components/InventoryTracker.jsx:201 | the `action` string of an entry: `login`, `logout` (212), `stock_update` (222), `item_added` (240) or `price_update` (249) |
| AuditLog.Entries | src/components/InventoryTracker.jsx:176-186 | one entry per action, in order, stamped with the user, the time and the selected store |
| AuditLog.Logged | src/components/InventoryTracker.jsx:177 | nothing when nobody is logged in; otherwise one entry per action |
| AuditLog.InScope | src/components/InventoryTracker.jsx:304 | an entry is shown to a non-owner when its store is the selected store |
| AuditLog.VisibleLogs | src/components/InventoryTracker.jsx:303-305 | the whole log for the owner; for any other role, exactly the entries of the selected store, each as often as it occurs, in log order |
| Query.NextSort | src/components/InventoryTracker.jsx:256-259 | the clicked column becomes the key; descending exactly when it was already the key and the direction was ascending |
| Query.NextSortTwice | src/components/InventoryTracker.jsx:257 | clicking the current column twice restores the configuration |
| Query.KeyLe | src/components/InventoryTracker.jsx:300 | `!(a[key] > b[key])`: the lexicographic order for the name and the category, the numeric order for the other columns |
| Query.MayPrecede | src/components/InventoryTracker.jsx:299-300 | ascending, `a` may stay before `b` when its key is not greater; descending, when `b`'s key is not greater. Equal keys may stand either way: the source's order for them depends on the engine |
| Query.Order | src/components/InventoryTracker.jsx:297-301 | the table's comparator for a chosen column and direction, as the relation `MayPrecede` |
| Query.OrderTotalPreorder | src/components/InventoryTracker.jsx:297-301 | for every column and direction, the comparator orders every pair and is transitive |
| Query.Matches | src/components/InventoryTracker.jsx:292-296 | the filter's three conditions: the selected store, the lower-cased search text inside the lower-cased name, and the category when a category filter is set |
| Query.Filtered | src/components/InventoryTracker.jsx:292-296 | every kept item is in the selected store, has the search text in its lower-cased name, and is in the category filter when one is set; every matching item is kept exactly as often as it occurs; input order is kept |
| Query.VisibleItems | src/components/InventoryTracker.jsx:291-301 | a permutation of exactly the matching items; in input order when no column is chosen; otherwise ordered by the chosen column and direction |
| Query.KeysDistinct | src/components/InventoryTracker.jsx:300 | no two matching items compare equal under the chosen column, the case where the comparator fixes a single order |
| Query.VisibleItemsIdempotent | src/components/InventoryTracker.jsx:291-301 | with no column chosen, or with no equal keys under the chosen column, applying the view to its own result changes nothing |
| Query.VisibleValueIgnoresSort | src/components/InventoryTracker.jsx:308 | the total value shown does not depend on the sort configuration |
| Query.ItemCategories | src/components/InventoryTracker.jsx:290 | one category per item, position by position |
| Query.Categories | src/components/InventoryTracker.jsx:290 | each category once; exactly the categories of the items; ordered by first appearance |
| Query.LowStock | src/components/InventoryTracker.jsx:307 | exactly the items of the view at or below their threshold, each as often as it occurs, in view order |
| Tracker.StockAction | src/components/InventoryTracker.jsx:220-222 | the `stock_update` one item logs: one for a matching item, none otherwise |
| Tracker.StockActionRecordsChange | src/components/InventoryTracker.jsx:220-225 | a matching item logs one entry, whose new total is the quantity the callback gives the item; any other item is returned unchanged and logs nothing |
| Tracker.StockUpdates | src/components/InventoryTracker.jsx:219-224 | one `stock_update` per matching item, none exactly when no item matches; each carries the amount and a non-negative new total |
| Tracker.StockUpdatesUnique | src/components/InventoryTracker.jsx:219-224 | with unique ids, a known id logs exactly one entry, carrying the clamped new total |
| Tracker.PriceAction | src/components/InventoryTracker.jsx:247-249 | the `price_update` one item logs: one for a matching item, none otherwise |
| Tracker.PriceActionRecordsChange | src/components/InventoryTracker.jsx:247-250 | a matching item logs one entry, carrying the price the callback gives the item; any other item is returned unchanged and logs nothing |
| Tracker.PriceUpdates | src/components/InventoryTracker.jsx:246-250 | one `price_update` per matching item, none exactly when no item matches; each carries the parsed price when that is neither NaN nor zero |
| Tracker.PriceUpdatesUnique | src/components/InventoryTracker.jsx:246-250 | with unique ids, a known id logs exactly one entry, carrying the price kept |
| Tracker.UpdateKinds | src/components/InventoryTracker.jsx:222 | every entry `addStock` logs has action `stock_update`, and every entry `updatePrice` logs has action `price_update` (line 249) |
| Tracker.Consistent | src/components/InventoryTracker.jsx:106-121 | the session invariant every handler keeps: a selected store is a listed one; while someone is logged in a store is selected, and a non-owner's is their own |
| Tracker.Session.constructor | src/components/InventoryTracker.jsx:127-149 | the saved list and log when present, else the seed items and an empty log; nobody logged in; no sort column |
| Tracker.Session.LogAction | src/components/InventoryTracker.jsx:176-186 | exactly one entry for the logged-in user and the selected store; nothing when nobody is logged in; nothing else changes |
| Tracker.Session.Login | src/components/InventoryTracker.jsx:188-208 | succeeds exactly when some table entry matches both fields; then it sets the user and the default store and logs one `login` entry with the user's scope; on failure nothing changes |
| Tracker.Session.Logout | src/components/InventoryTracker.jsx:210-216 | logs one `logout` entry and clears the user; the items, the selected store and the sort are kept |
| Tracker.Session.SelectStore | src/components/InventoryTracker.jsx:106-121 | takes one of the listed stores, as the selector offers; only the owner can change the selection; nothing else changes |
| Tracker.Session.StockCallback | src/components/InventoryTracker.jsx:219-225 | returns the adjusted item and logs its `stock_update` when it matches |
| Tracker.Session.AddStock | src/components/InventoryTracker.jsx:218-227 | the list becomes `AdjustQuantity` of the old list; the log grows by exactly `StockUpdates`; user, store and sort are kept |
| Tracker.Session.PriceCallback | src/components/InventoryTracker.jsx:246-252 | returns the repriced item and logs its `price_update` when it matches |
| Tracker.Session.UpdatePrice | src/components/InventoryTracker.jsx:245-254 | the list becomes `Reprice` of the old list; the log grows by exactly `PriceUpdates`; user, store and sort are kept |
| Tracker.Session.AddItem | src/components/InventoryTracker.jsx:229-243 | with every field filled in, exactly one item is appended in the selected store, which is a listed store with a name, with exactly one `item_added` entry; otherwise the items and the log are unchanged |
| Tracker.Session.HandleSort | src/components/InventoryTracker.jsx:256-259 | the sort becomes `NextSort` of the old one; nothing else changes |
| Tracker.Session.View | src/components/InventoryTracker.jsx:291-296 | every item shown is in the selected store, which for a non-owner is their own |
| Tracker.Session.Logs | src/components/InventoryTracker.jsx:303-305 | the owner sees the whole log; anyone else sees only entries of their own store |
| Analytics.ItemCost | src/components/AnalyticsDashboard.jsx:18 | what one item adds to its category's cost: its quantity times `UnitCost` |
| Analytics.UnitCost | src/components/AnalyticsDashboard.jsx:18 | the item's own cost when present and non-zero, otherwise 60% of its price |
| Analytics.EmptyGroup | src/components/AnalyticsDashboard.jsx:11-16 | a new group: the category, zero cost, zero revenue and no items |
| Analytics.Absorb | src/components/AnalyticsDashboard.jsx:18-20 | the three `+=` updates: cost grows by `ItemCost`, revenue by `LineValue`, count by 1; `AddToTotals` states their effect on the totals |
| Analytics.AddTo | src/components/AnalyticsDashboard.jsx:9-20 | one `forEach` step: the item joins the group of its category, opened at the end when the category is new; stated by `AddToExisting` and `AddToNew` |
| Analytics.Groups | src/components/AnalyticsDashboard.jsx:9-21 | the groups left by the `forEach`, one fold step per item, in key insertion order; its properties are stated by `GroupsInOrder`, `GroupsByCategory` and `GroupTotals` |
| Analytics.AddToExisting | src/components/AnalyticsDashboard.jsx:18-20 | an item of a category already keyed updates that group in place and no other |
| Analytics.AddToNew | src/components/AnalyticsDashboard.jsx:10-17 | an item of a new category opens a group after all existing ones |
| Analytics.GroupsInOrder | src/components/AnalyticsDashboard.jsx:9-23 | the groups are one summary per distinct category, in order of first occurrence |
| Analytics.GroupsByCategory | src/components/AnalyticsDashboard.jsx:9-23 | one group per distinct category, in order of first appearance; each holds the cost sum, the value and the number of that category's items |
| Analytics.AddToTotals | src/components/AnalyticsDashboard.jsx:18-20 | one item adds 1 to the total count, its value to the total revenue and its cost to the total cost |
| Analytics.GroupTotals | src/components/AnalyticsDashboard.jsx:9-21 | the counts add up to the number of items; the revenues add up to the total inventory value; the costs add up to the cost of all items |
| Analytics.Values | src/components/AnalyticsDashboard.jsx:23 | `Object.values(margins)`: the groups of the map, in key insertion order |
| Analytics.ValuesAbsorb | src/components/AnalyticsDashboard.jsx:18-20 | updating an existing key keeps the map keyed and acts as one fold step |
| Analytics.ValuesNew | src/components/AnalyticsDashboard.jsx:10-17 | inserting a new key keeps the map keyed and acts as one fold step |
| Analytics.Margin | src/components/AnalyticsDashboard.jsx:25 | no number exactly when the revenue is 0; otherwise margin × revenue = (revenue − cost) × 100, and a cost between 0 and a positive revenue gives a margin between 0 and 100 |
| Analytics.WithMargin | src/components/AnalyticsDashboard.jsx:23-26 | a group's chart row: its totals and count, with `Margin` of its cost and revenue |
| Analytics.WithMargins | src/components/AnalyticsDashboard.jsx:23-26 | the `map` over the groups: one row per group, in the same order |
| Analytics.CategoryMargins | src/components/AnalyticsDashboard.jsx:7-27 | the chart rows are the fold's groups, in key insertion order, each with its margin |
| Analytics.EstimatedCost | src/components/AnalyticsDashboard.jsx:18 | with no item carrying a cost, the cost is 60% of the value |
| Analytics.EstimatedCategory | src/components/AnalyticsDashboard.jsx:18 | the same, for each category |
| Analytics.EstimatedMargin | src/components/AnalyticsDashboard.jsx:25 | a group costed at 60% of a non-zero revenue has a 40% margin |
| Analytics.EstimatedMargins | src/components/AnalyticsDashboard.jsx:18-25 | with estimated costs only, every category with revenue shows a 40% margin |
| Analytics.MarginSum | src/components/AnalyticsDashboard.jsx:62 | no number exactly when some margin is not a number |
| Analytics.AverageMargin | src/components/AnalyticsDashboard.jsx:60-63 | 0 with no categories; no number exactly when some margin is not a number |
| Analytics.MarginSumBounds | src/components/AnalyticsDashboard.jsx:62 | the sum of n margins between `lo` and `hi` lies between n·lo and n·hi |
| Analytics.AverageMarginBounds | src/components/AnalyticsDashboard.jsx:60-63 | the average lies between the smallest and the largest margin |
| Analytics.StockValuePositive | src/components/AnalyticsDashboard.jsx:56-58 | a non-empty list with stock and positive prices has positive value |
| Analytics.CategoryRevenuePositive | src/components/AnalyticsDashboard.jsx:19 | under the same conditions, every category that occurs has positive revenue |
| Analytics.AverageMarginEstimated | src/components/AnalyticsDashboard.jsx:60-63 | with stock on hand, positive prices and estimated costs only, the average margin is 40% |
| Analytics.GroupsAsWritten | src/components/AnalyticsDashboard.jsx:10-17 | the grouping as written over a plain object: an item whose category is an inherited object name creates no group |
| Analytics.OwnName | src/components/AnalyticsDashboard.jsx:10 | a category that is not the name of an inherited object member, so `!margins[item.category]` holds for it until a group is opened |
| Analytics.GroupsAsWrittenDrops | src/components/AnalyticsDashboard.jsx:10-17 | as written, the chart groups only the items whose category is not an inherited object name |
| Analytics.InheritedCategoryLost | src/components/AnalyticsDashboard.jsx:10-17 | an item in category "constructor" produces no group, so the counts stop adding up to the number of items |
| Analytics.MoreStocked | src/components/AnalyticsDashboard.jsx:31 | `b.quantity - a.quantity` is not positive, so `a` may stay before `b` |
| Analytics.MoreStockedTotalPreorder | src/components/AnalyticsDashboard.jsx:31 | the quantity comparator orders every pair and is transitive |
| Analytics.RankedPrefix | src/components/AnalyticsDashboard.jsx:31-32 | the first n items of a quantity ranking come from it, and nothing after them has more stock |
| Analytics.TopStocked | src/components/AnalyticsDashboard.jsx:30-32 | min(5, n) items drawn from the input, with non-increasing quantities; every item left out has no more stock than any chosen one |
| Analytics.PopularItems | src/components/AnalyticsDashboard.jsx:29-37 | min(5, n) slices with non-increasing values; slice k is the name and quantity of the k-th of `TopStocked`, so the slices come from distinct input items |
| Analytics.PopularTiesKeepOrder | src/components/AnalyticsDashboard.jsx:31 | equally stocked items keep their input order |
| Analytics.TopStockedTiesEarliest | src/components/AnalyticsDashboard.jsx:31-32 | among equally stocked items, those that make the top five are the earliest in input order |
| Analytics.RateOf | src/components/AnalyticsDashboard.jsx:42 | NaN exactly for 0/0; +Infinity exactly for stock over a zero threshold; finite and non-negative for a positive threshold and non-negative stock |
| Analytics.Turnovers | src/components/AnalyticsDashboard.jsx:40-42 | one entry per item, carrying its name and its rate |
| Analytics.RateMayLead | src/components/AnalyticsDashboard.jsx:43 | `b.rate - a.rate` is not positive: true when the difference is NaN (a NaN rate, or two equal infinities), when `a` is +Infinity or `b` is −Infinity, and for finite rates when `b`'s is not larger |
| Analytics.RateAtLeastTotalPreorder | src/components/AnalyticsDashboard.jsx:43 | "at least as fast" orders every pair and is transitive |
| Analytics.TurnoverRates | src/components/AnalyticsDashboard.jsx:39-44 | one entry per item; a permutation of the unsorted rates |
| Analytics.TurnoverOrdersAgree | src/components/AnalyticsDashboard.jsx:43 | without a NaN rate, the comparator sorts like the "at least as fast" order |
| Analytics.TurnoverRatesSorted | src/components/AnalyticsDashboard.jsx:39-44 | without a NaN rate, the ranking runs from the fastest rate to the slowest |
| Analytics.TurnoverTiesKeepOrder | src/components/AnalyticsDashboard.jsx:43 | without a NaN rate, items with equal rates keep their input order |

## Left out

- Rendering is not modelled: the JSX markup, the login form, the tables, the recharts charts with their colours, and the mock sales series.
- `localStorage` and the JSON encoding are not modelled. The saved list and log are constructor parameters, and writing them back is left out.
- The CSV export and the `export` entry it logs are left out. The file download is DOM I/O, and the row text depends on JavaScript's number-to-string formatting.
- The text in a log entry's `details` is not built. An entry carries a structured `Action` with the data the text is made from.
- `toFixed(2)` rounding is left out:
  - Margins, rates and the average are exact reals.
  - The source sorts turnover rates by their strings rounded to two decimals. Two rates tie there exactly when they round to the same string (1.004 and 1.001 tie, 1.004 and 1.006 do not). Here they tie only when they are equal.
- `Analytics.Margin`: revenue 0 makes a margin "no number" (`None`). The source gets NaN when the cost is 0 too, and an infinity otherwise. The model does not tell these apart: any of them makes the source's average non-finite (NaN, +Infinity or −Infinity), and the model's average `None`.
- `Tracker.Session.AddItem`: text that is non-empty but not numeric makes `parseInt` or `parseFloat` return NaN. That case is not represented, because the parsed numbers arrive as integers and a real.
- `Analytics.TurnoverRatesSorted`, `Analytics.TurnoverTiesKeepOrder`, `Analytics.TurnoverOrdersAgree`: these require that no item has both zero stock and a zero threshold. With such an item the comparator is inconsistent, and the order depends on the engine's sorting algorithm.
  - `Analytics.TurnoverRates` itself has no such requirement.
  - The sort here is a stable insertion sort. For a consistent comparator, every stable sort gives the same result, so that result matches the engine's.
- `Query.VisibleItems`: with a column chosen, the model claims an order but no order among equal keys. On ties the table comparator returns a non-zero value, so their order depends on the engine.
- `Query.VisibleItemsIdempotent`: the lemma requires `Query.KeysDistinct` when a column is chosen. The model's stable sort would make the view idempotent without it. But on equal keys the source's comparator answers `-direction` whichever item comes first, so the engine may reorder tied items on every pass, and the source's view is then not idempotent.
- `Text.LexLe`, `Query.KeyLe`: strings are compared by code point, not by UTF-16 code unit. The two orders differ only for characters outside the Basic Multilingual Plane.
- `Text.LowerChar`, `Text.Lower`: only ASCII letters are lower-cased. JavaScript's `toLowerCase` also maps other letters.
- `Analytics.CategoryMargins`: `Object.values` lists integer-like keys such as "12" first, in numeric order. The model lists every key in insertion order.
- `Tracker.Session.constructor`: items loaded from storage are taken as they are, and their store ids are not checked against the store list. The model proves only that the seed items (`Items.SeedItemsInListedStores`) and every item `AddItem` appends belong to listed stores. It proves no such invariant over the whole list.
- The owner's `accessibleStores: 'all'` field is not modelled. Nothing reads it.
- React scheduling is not modelled: the handlers run one at a time, to completion, and read the state as it is.
  - The default-store effect runs together with `handleLogin`.
  - Clearing the login form and the new-item form is left out, as are the search and category setters. They only hold the arguments the view takes.
  - The `alert` on a failed login is left out.
- The sorts of the dashboard work on values, so the input list is never reordered. This is the property the source gets from copying the array before sorting.

Behaviour of the code that a reader might not expect:

- `handleAddItem` checks only that each field is non-empty. It does not check that the numbers parse, and it accepts a negative quantity.
- An unknown id in `addStock` or `updatePrice` raises no error. The list is rebuilt unchanged.
- Logging out clears the user but keeps the selected store.
- The table sort is not stable on equal keys (see above).

## Findings

| source | as written | input that shows it | evidently intended | confidence | as-written member | corrected member |
|---|---|---|---|---|---|---|
| src/components/AnalyticsDashboard.jsx:10-17 | the groups are keyed in a plain object, and a new group is created only when `!margins[item.category]`; a category named like an inherited member (`constructor`, `toString`, `__proto__`, …) already answers with a truthy inherited value (a function, or `Object.prototype` for `__proto__`), so no group is created and the item's totals are written onto that inherited value, which `Object.values` does not list | one item in category "constructor" (3 in stock at 12.0): the chart has no row, and the item counts add up to 0 instead of 1 | every category, whatever its name, gets one group, and the counts add up to the number of items | not executed | Analytics.GroupsAsWritten, Analytics.GroupsAsWrittenDrops, Analytics.InheritedCategoryLost | Analytics.CategoryMargins, Analytics.GroupTotals, Analytics.GroupsByCategory |

=== FILE: analytics.dfy ===
/** The figures of the analytics dashboard, all derived from the item list it
    is handed (the inventory view of the selected store): per-category cost,
    revenue and margin, the average margin, the five most stocked items and
    the turnover ranking. */
module Analytics {
  import opened Wrappers
  import opened Items
  import Seqs
  import Sorting
  import Query

  // ----- Category margins -----

  /** The running totals kept for one category. */
  datatype Group = Group(category: string, totalCost: real, totalRevenue: real, itemCount: nat)

  /** `item.cost || item.price * 0.6`: a missing or zero cost is estimated
      at 60% of the price. */
  function UnitCost(x: Item): (r: real)
    ensures x.cost.Some? && x.cost.value != 0.0 ==> r == x.cost.value
    ensures x.cost.None? || x.cost.value == 0.0 ==> r == 0.6 * x.price
  {
    if x.cost.Some? && x.cost.value != 0.0 then x.cost.value else x.price * 0.6
  }

  /** What one item adds to its category's `totalCost`. */
  function ItemCost(x: Item): real
  {
    x.quantity as real * UnitCost(x)
  }

  /** The estimated cost of a list of items, summed from the left. */
  function CostSum(items: seq<Item>): real
  {
    if items == [] then 0.0
    else CostSum(items[..|items| - 1]) + ItemCost(items[|items| - 1])
  }

  function EmptyGroup(c: string): Group
  {
    Group(c, 0.0, 0.0, 0)
  }

  /** The three `+=` updates one item makes to its category's totals. */
  function Absorb(g: Group, x: Item): Group
  {
    g.(totalCost := g.totalCost + ItemCost(x),
       totalRevenue := g.totalRevenue + LineValue(x),
       itemCount := g.itemCount + 1)
  }

  /** One step of the `forEach`: the item joins the group keyed by its
      category, which is first created, after all existing keys, when the
      category has not been seen. */
  function AddTo(gs: seq<Group>, x: Item): seq<Group>
  {
    if gs == [] then [Absorb(EmptyGroup(x.category), x)]
    else if gs[0].category == x.category then [Absorb(gs[0], x)] + gs[1..]
    else [gs[0]] + AddTo(gs[1..], x)
  }

  /** The groups once every item has been visited, in the order their keys
      were inserted. */
  function Groups(items: seq<Item>): seq<Group>
  {
    if items == [] then []
    else AddTo(Groups(items[..|items| - 1]), items[|items| - 1])
  }

  lemma {:induction false} AddToExisting(gs: seq<Group>, x: Item, k: nat)
    requires k < |gs| && gs[k].category == x.category
    requires forall j :: 0 <= j < k ==> gs[j].category != x.category
    ensures AddTo(gs, x) == gs[k := Absorb(gs[k], x)]
  {
    if k > 0 {
      AddToExisting(gs[1..], x, k - 1);
    }
  }

  lemma {:induction false} AddToNew(gs: seq<Group>, x: Item)
    requires forall j :: 0 <= j < |gs| ==> gs[j].category != x.category
    ensures AddTo(gs, x) == gs + [Absorb(EmptyGroup(x.category), x)]
  {
    if gs != [] {
      AddToNew(gs[1..], x);
      assert gs == [gs[0]] + gs[1..];
    }
  }

  /** The items of category `c`, in list order. This is the filter
      `Seqs.Filter(items, InCategory(c))` (`OfCategoryIsFilter`), built from
      the end of the list so that it unfolds in step with the `forEach` fold. */
  function OfCategory(items: seq<Item>, c: string): seq<Item>
  {
    if items == [] then []
    else
      var x := items[|items| - 1];
      OfCategory(items[..|items| - 1], c) + (if x.category == c then [x] else [])
  }

  function InCategory(c: string): Item -> bool
  {
    (x: Item) => x.category == c
  }

  lemma {:induction false} OfCategoryIsFilter(items: seq<Item>, c: string)
    ensures OfCategory(items, c) == Seqs.Filter(items, InCategory(c))
    decreases |items|
  {
    if items != [] {
      var s, x := items[..|items| - 1], items[|items| - 1];
      assert items == s + [x];
      OfCategoryIsFilter(s, c);
      Seqs.FilterSnoc(s, x, InCategory(c));
    }
  }

  lemma OfCategorySnoc(s: seq<Item>, x: Item, c: string)
    ensures OfCategory(s + [x], c) == OfCategory(s, c) + (if x.category == c then [x] else [])
  {
    assert (s + [x])[..|s|] == s;
  }

  /** Each item of `OfCategory(items, c)` is an item of the list, of category `c`. */
  lemma {:induction false} OfCategoryMembers(items: seq<Item>, c: string)
    ensures forall y :: y in OfCategory(items, c) ==> y in items && y.category == c
    decreases |items|
  {
    if items != [] {
      OfCategoryMembers(items[..|items| - 1], c);
      assert items == items[..|items| - 1] + [items[|items| - 1]];
    }
  }

  /** Every item of category `c` is among the items `OfCategory` keeps. */
  lemma {:induction false} OfCategoryComplete(items: seq<Item>, c: string, i: nat)
    requires i < |items| && items[i].category == c
    ensures items[i] in OfCategory(items, c)
    decreases |items|
  {
    if i < |items| - 1 {
      OfCategoryComplete(items[..|items| - 1], c, i);
    }
  }

  /** No item of category `c`: nothing to summarise. */
  lemma {:induction false} OfCategoryAbsent(items: seq<Item>, c: string)
    requires forall i :: 0 <= i < |items| ==> items[i].category != c
    ensures OfCategory(items, c) == []
    decreases |items|
  {
    if items != [] {
      OfCategoryAbsent(items[..|items| - 1], c);
    }
  }

  /** The totals of category `c` computed directly from its items `s`. */
  function Summary(c: string, s: seq<Item>): Group
  {
    Group(c, CostSum(s), StockValue(s), |s|)
  }

  /** The summary of each category of `cs` over `items`. */
  function Summaries(items: seq<Item>, cs: seq<string>): seq<Group>
  {
    seq(|cs|, k requires 0 <= k < |cs| => Summary(cs[k], OfCategory(items, cs[k])))
  }

  lemma SummaryStep(c: string, s: seq<Item>, x: Item)
    ensures Summary(c, s + [x]) == Absorb(Summary(c, s), x)
  {
    assert (s + [x])[..|s|] == s;
  }

  /** One more item changes the summary of its own category only. */
  lemma SummarySnoc(s: seq<Item>, x: Item, c: string)
    ensures Summary(c, OfCategory(s + [x], c)) ==
      if x.category == c then Absorb(Summary(c, OfCategory(s, c)), x)
      else Summary(c, OfCategory(s, c))
  {
    var t := OfCategory(s, c);
    OfCategorySnoc(s, x, c);
    if x.category == c {
      SummaryStep(c, t, x);
    } else {
      assert t + [] == t;
    }
  }

  /** An item of a category already present adds to that category's
      summary and to no other. */
  lemma SummariesAbsorb(s: seq<Item>, x: Item, cs: seq<string>, k: nat)
    requires k < |cs| && cs[k] == x.category && Seqs.Distinct(cs)
    ensures Summaries(s + [x], cs) == Summaries(s, cs)[k := Absorb(Summaries(s, cs)[k], x)]
  {
    var before, after := Summaries(s, cs), Summaries(s + [x], cs);
    forall j | 0 <= j < |cs|
      ensures after[j] == before[k := Absorb(before[k], x)][j]
    {
      SummarySnoc(s, x, cs[j]);
    }
  }

  /** An item of a new category opens a summary of its own at the end. */
  lemma SummariesExtend(s: seq<Item>, x: Item, cs: seq<string>)
    requires OfCategory(s, x.category) == []
    requires x.category !in cs
    ensures Summaries(s + [x], cs + [x.category]) == Summaries(s, cs) + [Absorb(EmptyGroup(x.category), x)]
  {
    var cs' := cs + [x.category];
    var before, after := Summaries(s, cs), Summaries(s + [x], cs');
    forall j | 0 <= j < |cs'|
      ensures after[j] == (before + [Absorb(EmptyGroup(x.category), x)])[j]
    {
      SummarySnoc(s, x, cs'[j]);
      if j == |cs| {
        assert [] + [x] == [x] && [x][..0] == [];
      }
    }
  }

  /** The distinct categories in order of first occurrence: the body of
      `Query.Categories` without its postconditions, which the fold proofs
      below do not need and which would only enlarge their contexts. */
  function CategoryOrder(items: seq<Item>): seq<string>
  {
    Seqs.Dedup(Query.ItemCategories(items))
  }

  lemma CategoryOrderIsCategories(items: seq<Item>)
    ensures CategoryOrder(items) == Query.Categories(items)
  {
  }

  lemma CategoryOrderSnoc(s: seq<Item>, x: Item)
    ensures CategoryOrder(s + [x]) ==
      if x.category in CategoryOrder(s) then CategoryOrder(s) else CategoryOrder(s) + [x.category]
  {
    var cs := Query.ItemCategories(s);
    var cs' := Query.ItemCategories(s + [x]);
    assert cs' == cs + [x.category];
    assert cs'[..|cs'| - 1] == cs;
  }

  /** A category not yet in the order has no items. */
  lemma NewCategoryEmpty(s: seq<Item>, c: string)
    requires c !in CategoryOrder(s)
    ensures OfCategory(s, c) == []
  {
    var ics := Query.ItemCategories(s);
    assert c !in ics;
    assert forall i :: 0 <= i < |s| ==> ics[i] == s[i].category != c;
    OfCategoryAbsent(s, c);
  }

  /** One more item is one more step of the fold. */
  lemma GroupsSnoc(s: seq<Item>, x: Item)
    ensures Groups(s + [x]) == AddTo(Groups(s), x)
  {
    assert (s + [x])[..|s|] == s;
  }

  /** The fold step and the summaries agree on an item of a listed category. */
  lemma AddToListed(s: seq<Item>, x: Item, cs: seq<string>)
    requires Groups(s) == Summaries(s, cs)
    requires x.category in cs && Seqs.Distinct(cs)
    ensures AddTo(Groups(s), x) == Summaries(s + [x], cs)
  {
    var gs := Groups(s);
    var k := Seqs.FirstIndex(cs, x.category);
    assert forall j :: 0 <= j < k ==> gs[j].category == cs[j] != x.category;
    AddToExisting(gs, x, k);
    SummariesAbsorb(s, x, cs, k);
  }

  /** The fold step and the summaries agree on an item of a new category. */
  lemma AddToUnlisted(s: seq<Item>, x: Item, cs: seq<string>)
    requires Groups(s) == Summaries(s, cs)
    requires x.category !in cs && OfCategory(s, x.category) == []
    ensures AddTo(Groups(s), x) == Summaries(s + [x], cs + [x.category])
  {
    var gs := Groups(s);
    assert forall j :: 0 <= j < |gs| ==> gs[j].category == cs[j] != x.category;
    AddToNew(gs, x);
    SummariesExtend(s, x, cs);
  }

  lemma GroupsSnocExisting(s: seq<Item>, x: Item)
    requires Groups(s) == Summaries(s, CategoryOrder(s))
    requires x.category in CategoryOrder(s)
    ensures Groups(s + [x]) == Summaries(s + [x], CategoryOrder(s + [x]))
  {
    CategoryOrderSnoc(s, x);
    GroupsSnoc(s, x);
    AddToListed(s, x, CategoryOrder(s));
  }

  lemma GroupsSnocNew(s: seq<Item>, x: Item)
    requires Groups(s) == Summaries(s, CategoryOrder(s))
    requires x.category !in CategoryOrder(s)
    ensures Groups(s + [x]) == Summaries(s + [x], CategoryOrder(s + [x]))
  {
    CategoryOrderSnoc(s, x);
    NewCategoryEmpty(s, x.category);
    GroupsSnoc(s, x);
    AddToUnlisted(s, x, CategoryOrder(s));
  }

  lemma {:induction false} GroupsInOrder(items: seq<Item>)
    ensures Groups(items) == Summaries(items, CategoryOrder(items))
    decreases |items|
  {
    if items != [] {
      var s, x := items[..|items| - 1], items[|items| - 1];
      assert items == s + [x];
      GroupsInOrder(s);
      if x.category in CategoryOrder(s) {
        GroupsSnocExisting(s, x);
      } else {
        GroupsSnocNew(s, x);
      }
    }
  }

  /** The grouping behind the margin chart: one group per category, in the
      order the categories first occur (the order of the category filter),
      each holding the count, the estimated cost and the revenue of exactly
      that category's items. */
  lemma GroupsByCategory(items: seq<Item>)
    ensures Groups(items) == Summaries(items, Query.Categories(items))
  {
    GroupsInOrder(items);
  }

  // Totals across the groups, summed from the head.

  function SumCounts(gs: seq<Group>): nat
  {
    if gs == [] then 0 else gs[0].itemCount + SumCounts(gs[1..])
  }

  function SumRevenue(gs: seq<Group>): real
  {
    if gs == [] then 0.0 else gs[0].totalRevenue + SumRevenue(gs[1..])
  }

  function SumCost(gs: seq<Group>): real
  {
    if gs == [] then 0.0 else gs[0].totalCost + SumCost(gs[1..])
  }

  lemma {:induction false} AddToTotals(gs: seq<Group>, x: Item)
    ensures SumCounts(AddTo(gs, x)) == SumCounts(gs) + 1
    ensures SumRevenue(AddTo(gs, x)) == SumRevenue(gs) + LineValue(x)
    ensures SumCost(AddTo(gs, x)) == SumCost(gs) + ItemCost(x)
  {
    if gs != [] && gs[0].category != x.category {
      AddToTotals(gs[1..], x);
      assert AddTo(gs, x)[1..] == AddTo(gs[1..], x);
    } else if gs != [] {
      assert AddTo(gs, x)[1..] == gs[1..];
    }
  }

  /** Every item is counted in exactly one category: the counts add up to
      the number of items, and the revenues to the total inventory value. */
  lemma {:induction false} GroupTotals(items: seq<Item>)
    ensures SumCounts(Groups(items)) == |items|
    ensures SumRevenue(Groups(items)) == StockValue(items)
    ensures SumCost(Groups(items)) == CostSum(items)
    decreases |items|
  {
    if items != [] {
      var s := items[..|items| - 1];
      GroupTotals(s);
      AddToTotals(Groups(s), items[|items| - 1]);
    }
  }

  /** A category's row in the margin chart. `margin` is
      `(revenue - cost) / revenue * 100`, absent where the source gets NaN
      or an infinity because the revenue is 0. */
  datatype CategoryMargin = CategoryMargin(
    category: string,
    totalCost: real,
    totalRevenue: real,
    itemCount: nat,
    margin: Option<real>)

  function Margin(cost: real, revenue: real): (r: Option<real>)
    ensures r.None? <==> revenue == 0.0
    ensures r.Some? ==> r.value * revenue == (revenue - cost) * 100.0
    ensures revenue > 0.0 && 0.0 <= cost <= revenue ==> r.Some? && 0.0 <= r.value <= 100.0
  {
    if revenue == 0.0 then None else Some((revenue - cost) / revenue * 100.0)
  }

  function WithMargin(g: Group): CategoryMargin
  {
    CategoryMargin(g.category, g.totalCost, g.totalRevenue, g.itemCount, Margin(g.totalCost, g.totalRevenue))
  }

  function WithMargins(gs: seq<Group>): seq<CategoryMargin>
  {
    seq(|gs|, k requires 0 <= k < |gs| => WithMargin(gs[k]))
  }

  /** The groups stored in `margins`, in the key order `order`. */
  function Values(order: seq<string>, margins: map<string, Group>): seq<Group>
    requires forall k :: 0 <= k < |order| ==> order[k] in margins
  {
    seq(|order|, k requires 0 <= k < |order| => margins[order[k]])
  }

  /** `margins` holds one group per key, filed under its own category,
      and `order` lists its keys once each in insertion order. */
  ghost predicate Keyed(order: seq<string>, margins: map<string, Group>)
  {
    && (forall c :: c in margins <==> c in order)
    && Seqs.Distinct(order)
    && (forall c :: c in margins ==> margins[c].category == c)
  }

  /** Adding to an existing key updates that group in place. */
  lemma ValuesAbsorb(order: seq<string>, margins: map<string, Group>, x: Item)
    requires Keyed(order, margins) && x.category in margins
    ensures Keyed(order, margins[x.category := Absorb(margins[x.category], x)])
    ensures Values(order, margins[x.category := Absorb(margins[x.category], x)])
         == AddTo(Values(order, margins), x)
  {
    var c, gs := x.category, Values(order, margins);
    var k := Seqs.FirstIndex(order, c);
    assert forall j :: 0 <= j < k ==> gs[j].category == order[j] != c;
    AddToExisting(gs, x, k);
  }

  /** A new key is listed after all existing ones. */
  lemma ValuesNew(order: seq<string>, margins: map<string, Group>, x: Item)
    requires Keyed(order, margins) && x.category !in margins
    ensures Keyed(order + [x.category], margins[x.category := Absorb(EmptyGroup(x.category), x)])
    ensures Values(order + [x.category], margins[x.category := Absorb(EmptyGroup(x.category), x)])
         == AddTo(Values(order, margins), x)
  {
    var c, gs := x.category, Values(order, margins);
    assert forall j :: 0 <= j < |gs| ==> gs[j].category == order[j] != c;
    AddToNew(gs, x);
  }

  /** `categoryMargins`: builds the keyed totals in one pass over the items,
      then lists them in key insertion order with their margins. The keys
      live in a map, which has none of a plain object's inherited names. */
  method CategoryMargins(items: seq<Item>) returns (r: seq<CategoryMargin>)
    ensures r == WithMargins(Groups(items))
  {
    var margins: map<string, Group> := map[];
    var order: seq<string> := [];
    for i := 0 to |items|
      invariant Keyed(order, margins)
      invariant Values(order, margins) == Groups(items[..i])
    {
      var x := items[i];
      var c := x.category;
      assert items[..i + 1][..i] == items[..i];
      if c !in margins {
        ValuesNew(order, margins, x);
        margins := margins[c := EmptyGroup(c)];
        order := order + [c];
      } else {
        ValuesAbsorb(order, margins, x);
      }
      margins := margins[c := Absorb(margins[c], x)];
    }
    assert items[..|items|] == items;
    r := seq(|order|, k requires 0 <= k < |order| => WithMargin(margins[order[k]]));
  }

  /** With estimated costs only, the cost is 60% of the revenue. */
  lemma {:induction false} EstimatedCost(s: seq<Item>)
    requires forall i :: 0 <= i < |s| ==> s[i].cost.None? || s[i].cost.value == 0.0
    ensures CostSum(s) == 0.6 * StockValue(s)
    decreases |s|
  {
    if s != [] {
      EstimatedCost(s[..|s| - 1]);
    }
  }

  lemma EstimatedCategory(items: seq<Item>, c: string)
    requires forall i :: 0 <= i < |items| ==> items[i].cost.None? || items[i].cost.value == 0.0
    ensures CostSum(OfCategory(items, c)) == 0.6 * StockValue(OfCategory(items, c))
  {
    var t := OfCategory(items, c);
    OfCategoryMembers(items, c);
    forall i | 0 <= i < |t| ensures t[i].cost.None? || t[i].cost.value == 0.0 {
      assert t[i] in t;
    }
    EstimatedCost(t);
  }

  lemma EstimatedMargin(g: Group)
    requires g.totalCost == 0.6 * g.totalRevenue && g.totalRevenue != 0.0
    ensures WithMargin(g).margin == Some(40.0)
  {
    var rev := g.totalRevenue;
    assert (rev - 0.6 * rev) / rev == 0.4;
  }

  /** Where no item carries its own cost, every category with revenue shows
      a 40% margin. */
  lemma EstimatedMargins(items: seq<Item>)
    requires forall i :: 0 <= i < |items| ==> items[i].cost.None? || items[i].cost.value == 0.0
    ensures forall k :: 0 <= k < |Groups(items)| && Groups(items)[k].totalRevenue != 0.0 ==>
              WithMargins(Groups(items))[k].margin == Some(40.0)
  {
    GroupsInOrder(items);
    var cs, gs := CategoryOrder(items), Groups(items);
    forall k | 0 <= k < |gs| && gs[k].totalRevenue != 0.0
      ensures WithMargins(gs)[k].margin == Some(40.0)
    {
      assert gs[k] == Summary(cs[k], OfCategory(items, cs[k]));
      EstimatedCategory(items, cs[k]);
      EstimatedMargin(gs[k]);
    }
  }

  // ----- Average margin -----

  /** The margins added up from the left; absent once any is absent. */
  function MarginSum(ms: seq<CategoryMargin>): (r: Option<real>)
    ensures r.None? <==> exists k :: 0 <= k < |ms| && ms[k].margin.None?
  {
    if ms == [] then Some(0.0)
    else
      var init, last := ms[..|ms| - 1], ms[|ms| - 1];
      assert forall k :: 0 <= k < |init| ==> init[k] == ms[k];
      var total := MarginSum(init);
      if total.Some? && last.margin.Some? then Some(total.value + last.margin.value) else None
  }

  /** `averageMargin`: 0 with no categories, otherwise the mean margin,
      absent when some margin is not a finite number. */
  function AverageMargin(ms: seq<CategoryMargin>): (r: Option<real>)
    ensures ms == [] ==> r == Some(0.0)
    ensures r.None? <==> exists k :: 0 <= k < |ms| && ms[k].margin.None?
  {
    if ms == [] then Some(0.0)
    else
      match MarginSum(ms)
      case None => None
      case Some(total) => Some(total / |ms| as real)
  }

  lemma {:induction false} MarginSumBounds(ms: seq<CategoryMargin>, lo: real, hi: real)
    requires forall k :: 0 <= k < |ms| ==> ms[k].margin.Some? && lo <= ms[k].margin.value <= hi
    ensures MarginSum(ms).Some?
    ensures |ms| as real * lo <= MarginSum(ms).value <= |ms| as real * hi
    decreases |ms|
  {
    if ms != [] {
      MarginSumBounds(ms[..|ms| - 1], lo, hi);
    }
  }

  /** The average lies between the smallest and the largest margin. */
  lemma AverageMarginBounds(ms: seq<CategoryMargin>, lo: real, hi: real)
    requires ms != []
    requires forall k :: 0 <= k < |ms| ==> ms[k].margin.Some? && lo <= ms[k].margin.value <= hi
    ensures AverageMargin(ms).Some?
    ensures lo <= AverageMargin(ms).value <= hi
  {
    MarginSumBounds(ms, lo, hi);
    MeanBounds(MarginSum(ms).value, |ms| as real, lo, hi);
  }

  /** A total between `n * lo` and `n * hi` has its mean between `lo` and `hi`. */
  lemma MeanBounds(total: real, n: real, lo: real, hi: real)
    requires n > 0.0 && n * lo <= total <= n * hi
    ensures lo <= total / n <= hi
  {
    var m := total / n;
    assert n * m == total;
    assert n * (m - lo) == total - n * lo >= 0.0;
    assert n * (hi - m) == n * hi - total >= 0.0;
  }

  lemma {:induction false} StockValuePositive(s: seq<Item>)
    requires s != []
    requires forall i :: 0 <= i < |s| ==> s[i].quantity > 0 && s[i].price > 0.0
    ensures StockValue(s) > 0.0
    decreases |s|
  {
    var x := s[|s| - 1];
    assert LineValue(x) > 0.0;
    if |s| > 1 {
      StockValuePositive(s[..|s| - 1]);
    }
  }

  /** A category that occurs has positive revenue when every item has stock
      and a positive price. */
  lemma CategoryRevenuePositive(items: seq<Item>, c: string)
    requires c in CategoryOrder(items)
    requires forall i :: 0 <= i < |items| ==> items[i].quantity > 0 && items[i].price > 0.0
    ensures StockValue(OfCategory(items, c)) > 0.0
  {
    var ics := Query.ItemCategories(items);
    var t := OfCategory(items, c);
    var i :| 0 <= i < |ics| && ics[i] == c;
    OfCategoryComplete(items, c, i);
    OfCategoryMembers(items, c);
    forall j | 0 <= j < |t| ensures t[j].quantity > 0 && t[j].price > 0.0 {
      assert t[j] in t;
    }
    StockValuePositive(t);
  }

  /** With stock on hand, positive prices and estimated costs only, the
      dashboard's average margin is 40%. */
  lemma AverageMarginEstimated(items: seq<Item>)
    requires items != []
    requires forall i :: 0 <= i < |items| ==>
               && (items[i].cost.None? || items[i].cost.value == 0.0)
               && items[i].quantity > 0 && items[i].price > 0.0
    ensures AverageMargin(WithMargins(Groups(items))) == Some(40.0)
  {
    GroupsInOrder(items);
    EstimatedMargins(items);
    var cs := CategoryOrder(items);
    var ms := WithMargins(Groups(items));
    forall k | 0 <= k < |cs| ensures Groups(items)[k].totalRevenue > 0.0 {
      CategoryRevenuePositive(items, cs[k]);
    }
    assert Query.ItemCategories(items)[0] in cs;
    assert ms != [];
    AverageMarginBounds(ms, 40.0, 40.0);
    var avg := AverageMargin(ms);
    assert avg.Some? && 40.0 <= avg.value <= 40.0;
  }

  // ----- Categories named like inherited object members -----

  /** The names every plain JavaScript object already answers to through
      its prototype, each with a truthy value: a function, or for
      `__proto__` the prototype object itself. */
  const INHERITED_NAMES: set<string> := {
    "constructor", "hasOwnProperty", "isPrototypeOf", "propertyIsEnumerable",
    "toString", "toLocaleString", "valueOf", "__proto__",
    "__defineGetter__", "__defineSetter__", "__lookupGetter__", "__lookupSetter__"
  }

  /** The grouping as the source writes it over a plain object: for an
      inherited name, `!margins[category]` is false, no group is created,
      and the item's totals go to the inherited member instead, which
      `Object.values` does not list. */
  function GroupsAsWritten(items: seq<Item>): seq<Group>
  {
    if items == [] then []
    else
      var gs := GroupsAsWritten(items[..|items| - 1]);
      var x := items[|items| - 1];
      if x.category in INHERITED_NAMES then gs else AddTo(gs, x)
  }

  predicate OwnName(x: Item)
  {
    x.category !in INHERITED_NAMES
  }

  /** As written, the chart is the grouping of only those items whose
      category is not an inherited name. */
  lemma {:induction false} GroupsAsWrittenDrops(items: seq<Item>)
    ensures GroupsAsWritten(items) == Groups(Seqs.Filter(items, OwnName))
    decreases |items|
  {
    if items != [] {
      var s, x := items[..|items| - 1], items[|items| - 1];
      assert items == s + [x];
      GroupsAsWrittenDrops(s);
      Seqs.FilterSnoc(s, x, OwnName);
      var t := Seqs.Filter(s, OwnName);
      if OwnName(x) {
        assert Seqs.Filter(items, OwnName) == t + [x];
        assert (t + [x])[..|t|] == t;
        assert Groups(t + [x]) == AddTo(Groups(t), x);
        assert GroupsAsWritten(items) == AddTo(GroupsAsWritten(s), x);
      } else {
        assert Seqs.Filter(items, OwnName) == t;
        assert GroupsAsWritten(items) == GroupsAsWritten(s);
      }
    }
  }

  /** An item in a category called "constructor" vanishes from the chart:
      no group, and the counts no longer add up to the number of items. */
  lemma InheritedCategoryLost()
    ensures var items := [Item(6, "Corkscrew", "constructor", 3, 1, 12.0, None, 1)];
            && GroupsAsWritten(items) == []
            && SumCounts(GroupsAsWritten(items)) == 0 < |items|
            && Groups(items) == [Group("constructor", 21.6, 36.0, 1)]
  {
    var items := [Item(6, "Corkscrew", "constructor", 3, 1, 12.0, None, 1)];
    assert items[..0] == [];
  }

  // ----- Most popular items -----

  /** `b.quantity - a.quantity` is not positive: `a` may stay before `b`. */
  predicate MoreStocked(a: Item, b: Item)
  {
    a.quantity >= b.quantity
  }

  lemma MoreStockedTotalPreorder()
    ensures Sorting.TotalPreorder(MoreStocked)
  {
  }

  function Min(a: int, b: int): int
  {
    if a < b then a else b
  }

  /** The first `n` entries of a list ordered by decreasing quantity are
      the best stocked: everything after them has no more stock. */
  lemma RankedPrefix(ranked: seq<Item>, n: nat)
    requires n <= |ranked|
    requires Sorting.Sorted(ranked, MoreStocked)
    ensures multiset(ranked[..n]) <= multiset(ranked)
    ensures forall x :: x in multiset(ranked) - multiset(ranked[..n]) ==>
              forall i :: 0 <= i < n ==> x.quantity <= ranked[i].quantity
  {
    assert ranked == ranked[..n] + ranked[n..];
    assert multiset(ranked) == multiset(ranked[..n]) + multiset(ranked[n..]);
    forall x | x in multiset(ranked) - multiset(ranked[..n])
      ensures forall i :: 0 <= i < n ==> x.quantity <= ranked[i].quantity
    {
      assert x in multiset(ranked[n..]);
      var m :| 0 <= m < |ranked[n..]| && ranked[n..][m] == x;
      assert ranked[n + m] == x;
      forall i | 0 <= i < n ensures x.quantity <= ranked[i].quantity {
        assert MoreStocked(ranked[i], ranked[n + m]);
      }
    }
  }

  /** The first five items of the stable sort by decreasing quantity: they
      are the best stocked, and whatever is left out has no more stock than
      any of them. */
  function TopStocked(items: seq<Item>): (r: seq<Item>)
    ensures |r| == Min(5, |items|)
    ensures forall i, j :: 0 <= i < j < |r| ==> r[i].quantity >= r[j].quantity
    ensures multiset(r) <= multiset(items)
    ensures forall x :: x in multiset(items) - multiset(r) ==>
              forall i :: 0 <= i < |r| ==> x.quantity <= r[i].quantity
  {
    var ranked := Sorting.Sort(items, MoreStocked);
    MoreStockedTotalPreorder();
    Sorting.SortSorted(items, MoreStocked);
    RankedPrefix(ranked, Min(5, |items|));
    ranked[..Min(5, |items|)]
  }

  /** A slice of the popularity chart. */
  datatype Popular = Popular(name: string, value: int)

  /** `popularItems`. */
  function PopularItems(items: seq<Item>): (r: seq<Popular>)
    ensures |r| == Min(5, |items|)
    ensures forall i, j :: 0 <= i < j < |r| ==> r[i].value >= r[j].value
    ensures forall k :: 0 <= k < |r| ==>
              r[k] == Popular(TopStocked(items)[k].name, TopStocked(items)[k].quantity)
  {
    var top := TopStocked(items);
    seq(|top|, k requires 0 <= k < |top| => Popular(top[k].name, top[k].quantity))
  }

  /** Equally stocked items keep their inventory order in the ranking. */
  lemma PopularTiesKeepOrder(items: seq<Item>, v: Item)
    ensures Sorting.TiesOf(Sorting.Sort(items, MoreStocked), v, MoreStocked)
         == Sorting.TiesOf(items, v, MoreStocked)
  {
    MoreStockedTotalPreorder();
    Sorting.SortStable(items, v, MoreStocked);
  }

  /** Among equally stocked items, the ones in the top five are the earliest
      in inventory order: their ties there are a prefix of their ties in the
      input. */
  lemma TopStockedTiesEarliest(items: seq<Item>, v: Item)
    ensures Sorting.TiesOf(TopStocked(items), v, MoreStocked) <= Sorting.TiesOf(items, v, MoreStocked)
  {
    var ranked := Sorting.Sort(items, MoreStocked);
    assert TopStocked(items) == ranked[..Min(5, |items|)];
    Sorting.TiesOfPrefix(ranked, Min(5, |items|), v, MoreStocked);
    PopularTiesKeepOrder(items, v);
  }

  // ----- Turnover rates -----

  /** A JavaScript number as the turnover computation can produce it. */
  datatype Rate = Finite(value: real) | PosInfinity | NegInfinity | NotANumber

  /** `quantity / (minThreshold * 2) * 100`, with JavaScript's results for
      a zero divisor. */
  function RateOf(quantity: int, minThreshold: int): (r: Rate)
    ensures r.NotANumber? <==> quantity == 0 && minThreshold == 0
    ensures r.PosInfinity? <==> quantity > 0 && minThreshold == 0
    ensures minThreshold > 0 && quantity >= 0 ==> r.Finite? && r.value >= 0.0
  {
    if minThreshold == 0 then
      if quantity > 0 then PosInfinity else if quantity < 0 then NegInfinity else NotANumber
    else
      assert minThreshold > 0 && quantity >= 0 ==> quantity as real / (minThreshold * 2) as real >= 0.0;
      Finite(quantity as real / (minThreshold * 2) as real * 100.0)
  }

  datatype Turnover = Turnover(name: string, rate: Rate)

  /** `items.map(...)` before the sort. */
  function Turnovers(items: seq<Item>): (r: seq<Turnover>)
    ensures |r| == |items|
    ensures forall k :: 0 <= k < |items| ==>
              r[k] == Turnover(items[k].name, RateOf(items[k].quantity, items[k].minThreshold))
  {
    seq(|items|, k requires 0 <= k < |items| => Turnover(items[k].name, RateOf(items[k].quantity, items[k].minThreshold)))
  }

  /** The comparator `b.rate - a.rate` is not positive. A NaN difference
      (a NaN rate, or two equal infinities) counts as a tie. */
  predicate RateMayLead(a: Turnover, b: Turnover)
  {
    if a.rate.NotANumber? || b.rate.NotANumber? || a.rate.PosInfinity? || b.rate.NegInfinity? then true
    else if a.rate.Finite? && b.rate.Finite? then b.rate.value <= a.rate.value
    else false
  }

  /** "At least as fast": a total preorder that agrees with the comparator
      on every rate that is a number, with NaN placed at the bottom. */
  predicate RateAtLeast(a: Turnover, b: Turnover)
  {
    || b.rate.NegInfinity? || b.rate.NotANumber? || a.rate.PosInfinity?
    || (a.rate.Finite? && b.rate.Finite? && a.rate.value >= b.rate.value)
  }

  lemma RateAtLeastTotalPreorder()
    ensures Sorting.TotalPreorder(RateAtLeast)
  {
  }

  /** `turnoverRates`: the rates sorted with the comparator, fastest first. */
  function TurnoverRates(items: seq<Item>): (r: seq<Turnover>)
    ensures |r| == |items|
    ensures multiset(r) == multiset(Turnovers(items))
  {
    Sorting.Sort(Turnovers(items), RateMayLead)
  }

  lemma TurnoverOrdersAgree(items: seq<Item>)
    requires forall i :: 0 <= i < |items| ==> items[i].quantity != 0 || items[i].minThreshold != 0
    ensures TurnoverRates(items) == Sorting.Sort(Turnovers(items), RateAtLeast)
  {
    var ts := Turnovers(items);
    forall a, b | a in ts && b in ts ensures RateMayLead(a, b) == RateAtLeast(a, b) {
      var i :| 0 <= i < |ts| && ts[i] == a;
      var j :| 0 <= j < |ts| && ts[j] == b;
    }
    Sorting.SortAgree(ts, RateMayLead, RateAtLeast);
  }

  /** Unless some item has neither stock nor threshold (a NaN rate, which
      makes the comparator inconsistent), the ranking runs from the fastest
      rate to the slowest. */
  lemma TurnoverRatesSorted(items: seq<Item>)
    requires forall i :: 0 <= i < |items| ==> items[i].quantity != 0 || items[i].minThreshold != 0
    ensures forall i, j :: 0 <= i < j < |items| ==> RateAtLeast(TurnoverRates(items)[i], TurnoverRates(items)[j])
  {
    TurnoverOrdersAgree(items);
    RateAtLeastTotalPreorder();
    Sorting.SortSorted(Turnovers(items), RateAtLeast);
  }

  /** Items with the same rate keep their inventory order. */
  lemma TurnoverTiesKeepOrder(items: seq<Item>, v: Turnover)
    requires forall i :: 0 <= i < |items| ==> items[i].quantity != 0 || items[i].minThreshold != 0
    ensures Sorting.TiesOf(TurnoverRates(items), v, RateAtLeast) == Sorting.TiesOf(Turnovers(items), v, RateAtLeast)
  {
    TurnoverOrdersAgree(items);
    RateAtLeastTotalPreorder();
    Sorting.SortStable(Turnovers(items), v, RateAtLeast);
  }
}

=== FILE: audit_log.dfy ===
/** The append-only action log: its entries, the entries each handler
    writes, and the role-scoped view of the log. */
module AuditLog {
  import opened Wrappers
  import opened Directory
  import Seqs

  /** The store an entry applies to; `AllStores` is the `'all'` sentinel. */
  datatype LogScope = AllStores | InStore(id: int)

  /** The kind of an entry together with the data its detail text is built from. */
  datatype Action =
    | LoggedIn(username: string)
    | LoggedOut(username: string)
    | StockChanged(itemName: string, amount: int, newTotal: int)
    | ItemAdded(itemName: string, storeName: Option<string>)
    | PriceUpdated(itemName: string, newPrice: real)

  /** The `action` string stored in the entry. */
  function Kind(a: Action): string
  {
    match a
    case LoggedIn(_) => "login"
    case LoggedOut(_) => "logout"
    case StockChanged(_, _, _) => "stock_update"
    case ItemAdded(_, _) => "item_added"
    case PriceUpdated(_, _) => "price_update"
  }

  datatype LogEntry = LogEntry(timestamp: string, user: string, action: Action, storeId: LogScope)

  /** `foundUser.storeId || 'all'`: the scope of a login entry. */
  function LoginScope(u: User): (r: LogScope)
    ensures u.storeId.Some? && u.storeId.value != 0 ==> r == InStore(u.storeId.value)
    ensures u.storeId.None? || u.storeId.value == 0 ==> r == AllStores
  {
    if u.storeId.Some? && u.storeId.value != 0 then InStore(u.storeId.value) else AllStores
  }

  /** In the directory, the owner logs in for all stores and everyone else
      for their own store. */
  lemma LoginScopeOfDirectory(u: User)
    requires u in USERS
    ensures u.role == Owner ==> LoginScope(u) == AllStores
    ensures u.role != Owner ==> LoginScope(u) == InStore(u.storeId.value)
  {
  }

  /** The entries `logAction` writes for `acts`, one per action, in order,
      all stamped with the same user, time and selected store. */
  function Entries(username: string, store: int, acts: seq<Action>, now: string): (r: seq<LogEntry>)
    ensures |r| == |acts|
    ensures forall k :: 0 <= k < |acts| ==> r[k] == LogEntry(now, username, acts[k], InStore(store))
  {
    if acts == [] then []
    else Entries(username, store, acts[..|acts| - 1], now) + [LogEntry(now, username, acts[|acts| - 1], InStore(store))]
  }

  lemma EntriesAppend(username: string, store: int, acts: seq<Action>, a: Action, now: string)
    ensures Entries(username, store, acts + [a], now)
         == Entries(username, store, acts, now) + [LogEntry(now, username, a, InStore(store))]
  {
    assert (acts + [a])[..|acts|] == acts;
  }

  /** What `logAction` appends for `acts`: entries for the logged-in user,
      nothing when nobody is logged in. */
  function Logged(u: Option<User>, store: Option<int>, acts: seq<Action>, now: string): (r: seq<LogEntry>)
    requires u.Some? ==> store.Some?
    ensures u.None? ==> r == []
    ensures u.Some? ==> |r| == |acts|
  {
    if u.None? then [] else Entries(u.value.username, store.value, acts, now)
  }

  lemma {:induction false} EntriesConcat(username: string, store: int, a: seq<Action>, b: seq<Action>, now: string)
    ensures Entries(username, store, a + b, now) == Entries(username, store, a, now) + Entries(username, store, b, now)
    decreases |b|
  {
    if b != [] {
      var init := b[..|b| - 1];
      assert a + b == (a + init) + [b[|b| - 1]];
      EntriesAppend(username, store, a + init, b[|b| - 1], now);
      EntriesConcat(username, store, a, init, now);
    } else {
      assert a + b == a;
    }
  }

  lemma LoggedConcat(u: Option<User>, store: Option<int>, a: seq<Action>, b: seq<Action>, now: string)
    requires u.Some? ==> store.Some?
    ensures Logged(u, store, a + b, now) == Logged(u, store, a, now) + Logged(u, store, b, now)
  {
    if u.Some? {
      EntriesConcat(u.value.username, store.value, a, b, now);
    }
  }

  /** A non-owner sees the entries of the selected store. */
  predicate InScope(e: LogEntry, selected: int)
  {
    e.storeId == InStore(selected)
  }

  /** `filteredActionLogs`: everything for the owner; for any other role the
      entries of the selected store, in log order. */
  function VisibleLogs(logs: seq<LogEntry>, role: Role, selected: int): (r: seq<LogEntry>)
    ensures role == Owner ==> r == logs
    ensures role != Owner ==> forall i :: 0 <= i < |r| ==> r[i].storeId == InStore(selected)
    ensures role != Owner ==> forall e :: multiset(r)[e] == if e.storeId == InStore(selected) then multiset(logs)[e] else 0
    ensures Seqs.Subsequence(r, logs)
  {
    if role == Owner then
      Seqs.SubsequenceRefl(logs);
      logs
    else
      var p := (e: LogEntry) => InScope(e, selected);
      Seqs.FilterMultiset(logs, p);
      Seqs.FilterSubsequence(logs, p);
      Seqs.Filter(logs, p)
  }
}

=== FILE: directory.dfy ===
/** The fixed credential list, the store list and the role capabilities
    (the module-level `USERS` and `STORES` constants and the role checks). */
module Directory {
  import opened Wrappers

  datatype Role = Owner | Manager | Staff

  /** A directory entry; the owner has no store of its own (`accessibleStores: 'all'`). */
  datatype User = User(username: string, password: string, role: Role, storeId: Option<int>)

  datatype Store = Store(id: int, name: string, location: string, manager: string)

  const USERS: seq<User> := [
    User("owner", "owner123", Owner, None),
    User("manager1", "manager123", Manager, Some(1)),
    User("manager2", "manager123", Manager, Some(2)),
    User("staff1", "staff123", Staff, Some(1))
  ]

  const STORES: seq<Store> := [
    Store(1, "Downtown Store", "123 Main St", "manager1"),
    Store(2, "Westside Store", "456 West Ave", "manager2")
  ]

  /** Exact string equality on both the user name and the password. */
  predicate Credentials(u: User, username: string, password: string)
  {
    u.username == username && u.password == password
  }

  /** `users.find(...)`: the first entry whose credentials match, if any. */
  function FindUser(users: seq<User>, username: string, password: string): (r: Option<User>)
    ensures r.None? <==> forall i :: 0 <= i < |users| ==> !Credentials(users[i], username, password)
    ensures r.Some? ==> exists i :: 0 <= i < |users| && users[i] == r.value
                           && Credentials(users[i], username, password)
                           && forall j :: 0 <= j < i ==> !Credentials(users[j], username, password)
  {
    if users == [] then None
    else if Credentials(users[0], username, password) then Some(users[0])
    else
      var r := FindUser(users[1..], username, password);
      assert forall i :: 1 <= i < |users| ==> users[i] == users[1..][i - 1];
      r
  }

  /** `id` is the id of a listed store: the ids the store selector offers. */
  predicate KnownStore(id: int)
  {
    exists i :: 0 <= i < |STORES| && STORES[i].id == id
  }

  /** Every non-owner in the directory has a store of its own, and it is a
      listed store. */
  lemma DirectoryWellFormed()
    ensures forall u :: u in USERS ==> (u.role == Owner <==> u.storeId.None?)
    ensures forall u :: u in USERS && u.storeId.Some? ==> KnownStore(u.storeId.value)
  {
    assert STORES[0].id == 1 && STORES[1].id == 2;
  }

  /** The store selected on login (the default-store effect): the first store
      for the owner, the user's own store otherwise. */
  function DefaultStore(u: User): (r: Option<int>)
    ensures u.role == Owner ==> r == Some(STORES[0].id)
    ensures u.role != Owner ==> r == u.storeId
  {
    if u.role == Owner then Some(STORES[0].id) else u.storeId
  }

  /** Whoever logs in is left with a listed store selected. */
  lemma LoginSelectsStore(username: string, password: string)
    ensures FindUser(USERS, username, password).Some? ==>
              && DefaultStore(FindUser(USERS, username, password).value).Some?
              && KnownStore(DefaultStore(FindUser(USERS, username, password).value).value)
  {
    var r := FindUser(USERS, username, password);
    if r.Some? {
      DirectoryWellFormed();
      assert r.value in USERS;
      assert STORES[0].id == 1;
    }
  }

  /** `STORES.find(s => s.id === id)?.name`. */
  function StoreName(stores: seq<Store>, id: int): (r: Option<string>)
    ensures r.Some? <==> exists i :: 0 <= i < |stores| && stores[i].id == id
    ensures r.Some? ==> exists i :: 0 <= i < |stores| && stores[i].id == id && stores[i].name == r.value
  {
    if stores == [] then None
    else if stores[0].id == id then Some(stores[0].name)
    else
      var r := StoreName(stores[1..], id);
      assert forall i :: 1 <= i < |stores| ==> stores[i] == stores[1..][i - 1];
      r
  }

  /** Only the owner is shown the store selector. */
  predicate CanSelectStore(role: Role)
  {
    role == Owner
  }

  /** Price edits are offered to the owner and to managers. */
  function CanEditPrice(role: Role): (r: bool)
    ensures r <==> role != Staff
  {
    role == Owner || role == Manager
  }

  /** Export and the analytics view are offered to the owner and to managers. */
  function CanExport(role: Role): (r: bool)
    ensures r <==> role != Staff
  {
    role == Owner || role == Manager
  }
}

=== FILE: items.dfy ===
/** Inventory items and the pure item-list rebuilds behind the stock
    handlers: `addStock`'s map, `updatePrice`'s map, the record that
    `handleAddItem` appends, and the `quantity * price` value fold. */
module Items {
  import opened Wrappers
  import Seqs
  import Directory

  /** A stock item. Prices and costs are exact reals; `cost` is absent on
      every item the application itself creates. */
  datatype Item = Item(
    id: int,
    name: string,
    category: string,
    quantity: int,
    minThreshold: int,
    price: real,
    cost: Option<real>,
    storeId: int)

  /** The five items used when nothing was saved before. */
  const SEED_ITEMS: seq<Item> := [
    Item(1, "Red Wine", "Wine", 24, 10, 19.99, None, 1),
    Item(2, "Vodka", "Spirits", 12, 5, 24.99, None, 1),
    Item(3, "IPA Beer", "Beer", 48, 20, 6.99, None, 1),
    Item(4, "Red Wine", "Wine", 30, 10, 21.99, None, 2),
    Item(5, "Whiskey", "Spirits", 15, 5, 45.99, None, 2)
  ]

  /** No two items share an id. */
  predicate UniqueIds(items: seq<Item>)
  {
    forall i, j :: 0 <= i < j < |items| ==> items[i].id != items[j].id
  }

  lemma SeedItemsUniqueIds()
    ensures UniqueIds(SEED_ITEMS)
  {
  }

  /** Every seed item belongs to a listed store. */
  lemma SeedItemsInListedStores()
    ensures forall i :: 0 <= i < |SEED_ITEMS| ==> Directory.KnownStore(SEED_ITEMS[i].storeId)
  {
    assert Directory.STORES[0].id == 1 && Directory.STORES[1].id == 2;
  }

  /** `Math.max(0, n)`. */
  function Clamp(n: int): int
  {
    if n < 0 then 0 else n
  }

  /** `item.quantity * item.price`. */
  function LineValue(x: Item): real
  {
    x.quantity as real * x.price
  }

  /** `items.reduce((sum, item) => sum + item.quantity * item.price, 0)`,
      folded from the left as `reduce` does. */
  function StockValue(items: seq<Item>): (r: real)
    ensures items == [] ==> r == 0.0
    ensures (forall i :: 0 <= i < |items| ==> items[i].quantity >= 0 && items[i].price >= 0.0) ==> r >= 0.0
  {
    if items == [] then 0.0
    else
      var x := items[|items| - 1];
      assert x.quantity >= 0 && x.price >= 0.0 ==> LineValue(x) >= 0.0;
      StockValue(items[..|items| - 1]) + LineValue(x)
  }

  lemma {:induction false} StockValueAppend(s: seq<Item>, t: seq<Item>)
    ensures StockValue(s + t) == StockValue(s) + StockValue(t)
    decreases |t|
  {
    if t == [] {
      assert s + t == s;
    } else {
      var init := t[..|t| - 1];
      assert (s + t)[..|s + t| - 1] == s + init;
      assert (s + t)[|s + t| - 1] == t[|t| - 1];
      StockValueAppend(s, init);
    }
  }

  /** The value does not depend on the order of the items, so sorting the
      view never changes the total shown. */
  lemma {:induction false} StockValuePermutation(s: seq<Item>, t: seq<Item>)
    requires multiset(s) == multiset(t)
    ensures StockValue(s) == StockValue(t)
    decreases |s|
  {
    if s == [] {
      assert |t| == |multiset(t)| == 0;
    } else {
      var init, x := s[..|s| - 1], s[|s| - 1];
      assert s == init + [x];
      assert x in multiset(t);
      var j :| 0 <= j < |t| && t[j] == x;
      var before, after := t[..j], t[j + 1..];
      assert t == before + [x] + after;
      Seqs.RemoveMatching(init, x, t, j);
      StockValuePermutation(init, before + after);
      StockValueAppend(before, after);
      StockValueAppend(before + [x], after);
      StockValueAppend(before, [x]);
      assert StockValue([x]) == LineValue(x) by {
        assert [x][..0] == [];
      }
    }
  }

  /** The callback of `addStock`'s map. */
  function AdjustOne(x: Item, id: int, amount: int): Item
  {
    if x.id == id then x.(quantity := Clamp(x.quantity + amount)) else x
  }

  /** `addStock`'s map: matching items get quantity `max(0, quantity + amount)`. */
  function AdjustQuantity(items: seq<Item>, id: int, amount: int): (r: seq<Item>)
    ensures |r| == |items|
    ensures forall i :: 0 <= i < |items| && items[i].id != id ==> r[i] == items[i]
    ensures forall i :: 0 <= i < |items| && items[i].id == id ==>
              && r[i] == items[i].(quantity := r[i].quantity)
              && r[i].quantity >= 0
              && r[i].quantity == (if items[i].quantity + amount < 0 then 0 else items[i].quantity + amount)
    ensures (forall i :: 0 <= i < |items| ==> items[i].id != id) ==> r == items
  {
    seq(|items|, i requires 0 <= i < |items| => AdjustOne(items[i], id, amount))
  }

  /** Adjusting one more item extends the adjusted prefix by that item. */
  lemma AdjustQuantityStep(items: seq<Item>, i: nat, id: int, amount: int)
    requires i < |items|
    ensures AdjustQuantity(items[..i + 1], id, amount) == AdjustQuantity(items[..i], id, amount) + [AdjustOne(items[i], id, amount)]
  {
  }

  /** An adjustment that did not hit the floor of 0 is undone by the opposite one. */
  lemma {:induction false} AdjustQuantityUndo(items: seq<Item>, id: int, amount: int)
    requires forall i :: 0 <= i < |items| && items[i].id == id ==>
               items[i].quantity >= 0 && items[i].quantity + amount >= 0
    ensures AdjustQuantity(AdjustQuantity(items, id, amount), id, -amount) == items
  {
    var once := AdjustQuantity(items, id, amount);
    var twice := AdjustQuantity(once, id, -amount);
    forall i | 0 <= i < |items| ensures twice[i] == items[i] {
      if items[i].id == id {
        assert once[i].id == id;
      }
    }
  }

  /** `parseFloat(newPrice) || item.price`: NaN (`None`) and zero fall back to
      the current price. */
  function NewPrice(current: real, parsed: Option<real>): (r: real)
    ensures parsed.Some? && parsed.value != 0.0 ==> r == parsed.value
    ensures parsed.None? || parsed.value == 0.0 ==> r == current
  {
    if parsed.Some? && parsed.value != 0.0 then parsed.value else current
  }

  /** The callback of `updatePrice`'s map. */
  function RepriceOne(x: Item, id: int, parsed: Option<real>): Item
  {
    if x.id == id then x.(price := NewPrice(x.price, parsed)) else x
  }

  /** `updatePrice`'s map: matching items get `NewPrice`. */
  function Reprice(items: seq<Item>, id: int, parsed: Option<real>): (r: seq<Item>)
    ensures |r| == |items|
    ensures forall i :: 0 <= i < |items| && items[i].id != id ==> r[i] == items[i]
    ensures forall i :: 0 <= i < |items| && items[i].id == id ==>
              && r[i] == items[i].(price := r[i].price)
              && (parsed.Some? && parsed.value != 0.0 ==> r[i].price == parsed.value)
              && (parsed.None? || parsed.value == 0.0 ==> r[i].price == items[i].price)
    ensures (parsed.None? || parsed.value == 0.0) ==> r == items
    ensures (forall i :: 0 <= i < |items| ==> items[i].id != id) ==> r == items
  {
    seq(|items|, i requires 0 <= i < |items| => RepriceOne(items[i], id, parsed))
  }

  /** Repricing one more item extends the repriced prefix by that item. */
  lemma RepriceStep(items: seq<Item>, i: nat, id: int, parsed: Option<real>)
    requires i < |items|
    ensures Reprice(items[..i + 1], id, parsed) == Reprice(items[..i], id, parsed) + [RepriceOne(items[i], id, parsed)]
  {
  }

  /** Entering the same price twice has the effect of entering it once. */
  lemma {:induction false} RepriceIdempotent(items: seq<Item>, id: int, parsed: Option<real>)
    ensures Reprice(Reprice(items, id, parsed), id, parsed) == Reprice(items, id, parsed)
  {
    var once := Reprice(items, id, parsed);
    var twice := Reprice(once, id, parsed);
    forall i | 0 <= i < |items| ensures twice[i] == once[i] {
      if items[i].id == id {
        assert once[i].id == id;
      }
    }
  }

  /** The text fields of the new-item form. */
  datatype NewItemForm = NewItemForm(
    name: string,
    category: string,
    quantity: string,
    minThreshold: string,
    price: string)

  /** The truthiness test of `handleAddItem`: no field is the empty string. */
  predicate Complete(f: NewItemForm)
  {
    f.name != "" && f.category != "" && f.quantity != "" && f.minThreshold != "" && f.price != ""
  }

  /** The record appended by `handleAddItem`, given the parsed numbers, the
      fresh id and the selected store. */
  function MakeItem(f: NewItemForm, id: int, quantity: int, minThreshold: int, price: real, storeId: int): (r: Item)
    ensures r.id == id && r.storeId == storeId && r.cost.None?
    ensures r.name == f.name && r.category == f.category
    ensures r.quantity == quantity && r.minThreshold == minThreshold && r.price == price
  {
    Item(id, f.name, f.category, quantity, minThreshold, price, None, storeId)
  }
}

=== FILE: query.dfy ===
/** The inventory view derived on every render: the visible items (store,
    search and category filter, then the column sort), the category list,
    the low-stock items and the sort-toggle rule. */
module Query {
  import opened Wrappers
  import opened Items
  import opened Text
  import Seqs
  import Sorting

  /** The sortable columns, in place of a field name chosen at run time. */
  datatype SortKey = ByName | ByCategory | ByQuantity | ByMinThreshold | ByPrice

  datatype Direction = Asc | Desc

  datatype SortConfig = SortConfig(key: Option<SortKey>, direction: Direction)

  /** `{ key: null, direction: 'asc' }`. */
  const INITIAL_SORT := SortConfig(None, Asc)

  /** `handleSort`: the same column clicked while ascending turns descending;
      anything else sorts ascending by the clicked column. */
  function NextSort(cfg: SortConfig, key: SortKey): (r: SortConfig)
    ensures r.key == Some(key)
    ensures r.direction == Desc <==> cfg.key == Some(key) && cfg.direction == Asc
  {
    SortConfig(Some(key), if cfg.key == Some(key) && cfg.direction == Asc then Desc else Asc)
  }

  /** Clicking the current column twice restores the configuration. */
  lemma NextSortTwice(cfg: SortConfig, key: SortKey)
    requires cfg.key == Some(key)
    ensures NextSort(NextSort(cfg, key), key) == cfg
  {
  }

  /** `!(a[key] > b[key])`: strings compare lexicographically, numbers numerically. */
  predicate KeyLe(a: Item, b: Item, key: SortKey)
  {
    match key
    case ByName => LexLe(a.name, b.name)
    case ByCategory => LexLe(a.category, b.category)
    case ByQuantity => a.quantity <= b.quantity
    case ByMinThreshold => a.minThreshold <= b.minThreshold
    case ByPrice => a.price <= b.price
  }

  /** `a` may stay before `b` under the comparator
      `a[key] > b[key] ? direction : -direction`, ties resolved toward `a`. */
  predicate MayPrecede(a: Item, b: Item, key: SortKey, dir: Direction)
  {
    if dir == Asc then KeyLe(a, b, key) else KeyLe(b, a, key)
  }

  function Order(key: SortKey, dir: Direction): (Item, Item) -> bool
  {
    (a: Item, b: Item) => MayPrecede(a, b, key, dir)
  }

  lemma OrderTotalPreorder(key: SortKey, dir: Direction)
    ensures Sorting.TotalPreorder(Order(key, dir))
  {
    var ord := Order(key, dir);
    forall a, b ensures ord(a, b) || ord(b, a) {
      LexLeTotal(a.name, b.name);
      LexLeTotal(a.category, b.category);
    }
    forall a, b, c | ord(a, b) && ord(b, c) ensures ord(a, c) {
      var (lo, mid, hi) := if dir == Asc then (a, b, c) else (c, b, a);
      assert KeyLe(lo, mid, key) && KeyLe(mid, hi, key);
      match key {
        case ByName => LexLeTransitive(lo.name, mid.name, hi.name);
        case ByCategory => LexLeTransitive(lo.category, mid.category, hi.category);
        case _ =>
      }
    }
  }

  /** The filter of `filteredAndSortedItems`: the selected store, the search
      text anywhere in the name ignoring case, and the category filter when
      one is set. */
  predicate Matches(x: Item, store: int, search: string, category: string)
  {
    && x.storeId == store
    && Contains(Lower(x.name), Lower(search))
    && (category != "" ==> x.category == category)
  }

  /** The matching items, in input order. */
  function Filtered(items: seq<Item>, store: int, search: string, category: string): (r: seq<Item>)
    ensures forall i :: 0 <= i < |r| ==> Matches(r[i], store, search, category)
    ensures forall x :: multiset(r)[x] == if Matches(x, store, search, category) then multiset(items)[x] else 0
    ensures Seqs.Subsequence(r, items)
  {
    var p := (x: Item) => Matches(x, store, search, category);
    Seqs.FilterMultiset(items, p);
    Seqs.FilterSubsequence(items, p);
    Seqs.Filter(items, p)
  }

  /** `filteredAndSortedItems`: exactly the matching items; in input order
      when no column is chosen, otherwise ordered by the chosen column. */
  function VisibleItems(items: seq<Item>, store: int, search: string, category: string, cfg: SortConfig): (r: seq<Item>)
    ensures forall i :: 0 <= i < |r| ==> Matches(r[i], store, search, category)
    ensures forall x :: multiset(r)[x] == if Matches(x, store, search, category) then multiset(items)[x] else 0
    ensures cfg.key.None? ==> Seqs.Subsequence(r, items)
    ensures cfg.key.Some? ==>
              forall i, j :: 0 <= i < j < |r| ==> MayPrecede(r[i], r[j], cfg.key.value, cfg.direction)
  {
    var f := Filtered(items, store, search, category);
    if cfg.key.None? then f
    else
      var ord := Order(cfg.key.value, cfg.direction);
      OrderTotalPreorder(cfg.key.value, cfg.direction);
      Sorting.SortSorted(f, ord);
      var r := Sorting.Sort(f, ord);
      assert forall i :: 0 <= i < |r| ==> Matches(r[i], store, search, category) by {
        forall i | 0 <= i < |r| ensures Matches(r[i], store, search, category) {
          assert r[i] in multiset(f);
        }
      }
      r
  }

  /** Under column `key`, no two matching items have equal keys. Only then
      does the table's comparator, which never answers 0, fix one order. */
  predicate KeysDistinct(items: seq<Item>, store: int, search: string, category: string, key: SortKey)
  {
    forall i, j :: 0 <= i < j < |items| && Matches(items[i], store, search, category)
                   && Matches(items[j], store, search, category)
                   ==> !(KeyLe(items[i], items[j], key) && KeyLe(items[j], items[i], key))
  }

  /** Applying the view to its own result changes nothing, when no column is
      chosen or the chosen column has no equal keys among the matching items. */
  lemma VisibleItemsIdempotent(items: seq<Item>, store: int, search: string, category: string, cfg: SortConfig)
    requires cfg.key.Some? ==> KeysDistinct(items, store, search, category, cfg.key.value)
    ensures VisibleItems(VisibleItems(items, store, search, category, cfg), store, search, category, cfg)
         == VisibleItems(items, store, search, category, cfg)
  {
    var r := VisibleItems(items, store, search, category, cfg);
    Seqs.FilterAll(r, (x: Item) => Matches(x, store, search, category));
    assert Filtered(r, store, search, category) == r;
    if cfg.key.Some? {
      var ord := Order(cfg.key.value, cfg.direction);
      assert Sorting.Sorted(r, ord);
      Sorting.SortOfSorted(r, ord);
    }
  }

  /** `totalValue`: the value of the view does not depend on the sort. */
  lemma VisibleValueIgnoresSort(items: seq<Item>, store: int, search: string, category: string, c1: SortConfig, c2: SortConfig)
    ensures StockValue(VisibleItems(items, store, search, category, c1))
         == StockValue(VisibleItems(items, store, search, category, c2))
  {
    var r1 := VisibleItems(items, store, search, category, c1);
    var r2 := VisibleItems(items, store, search, category, c2);
    forall x ensures multiset(r1)[x] == multiset(r2)[x] {
    }
    assert multiset(r1) == multiset(r2);
    StockValuePermutation(r1, r2);
  }

  /** `items.map(item => item.category)`. */
  function ItemCategories(items: seq<Item>): (r: seq<string>)
    ensures |r| == |items|
    ensures forall i :: 0 <= i < |items| ==> r[i] == items[i].category
  {
    seq(|items|, i requires 0 <= i < |items| => items[i].category)
  }

  /** `categories`: each category once, in order of first appearance. */
  function Categories(items: seq<Item>): (r: seq<string>)
    ensures Seqs.Distinct(r)
    ensures forall c :: c in r <==> exists i :: 0 <= i < |items| && items[i].category == c
    ensures forall i :: 0 <= i < |r| ==> r[i] in ItemCategories(items)
    ensures forall i, j :: 0 <= i < j < |r| ==>
              Seqs.FirstIndex(ItemCategories(items), r[i]) < Seqs.FirstIndex(ItemCategories(items), r[j])
  {
    var cs := ItemCategories(items);
    Seqs.DedupOrder(cs);
    assert forall c :: c in cs <==> exists i :: 0 <= i < |items| && items[i].category == c by {
      forall c | c in cs ensures exists i :: 0 <= i < |items| && items[i].category == c {
        var i :| 0 <= i < |cs| && cs[i] == c;
      }
    }
    Seqs.Dedup(cs)
  }

  /** `lowStockItems`: the items of the view at or below their threshold, in view order. */
  function LowStock(view: seq<Item>): (r: seq<Item>)
    ensures forall i :: 0 <= i < |r| ==> r[i].quantity <= r[i].minThreshold
    ensures forall x :: multiset(r)[x] == if x.quantity <= x.minThreshold then multiset(view)[x] else 0
    ensures Seqs.Subsequence(r, view)
  {
    var p := (x: Item) => x.quantity <= x.minThreshold;
    Seqs.FilterMultiset(view, p);
    Seqs.FilterSubsequence(view, p);
    Seqs.Filter(view, p)
  }
}

=== FILE: seqs.dfy ===
/** Sequence helpers shared by the view and the analytics: filtering,
    subsequences and first-occurrence de-duplication (`[...new Set(xs)]`). */
module Seqs {

  /** `s` can be obtained from `t` by deleting elements. */
  predicate Subsequence<T(==)>(s: seq<T>, t: seq<T>)
  {
    if s == [] then true
    else if t == [] then false
    else if s[0] == t[0] then Subsequence(s[1..], t[1..])
    else Subsequence(s, t[1..])
  }

  lemma {:induction false} SubsequenceRefl<T>(s: seq<T>)
    ensures Subsequence(s, s)
  {
    if s != [] {
      SubsequenceRefl(s[1..]);
    }
  }

  /** `Array.prototype.filter`: the elements of `s` that satisfy `p`, in order. */
  function Filter<T(==,!new)>(s: seq<T>, p: T -> bool): (r: seq<T>)
    ensures |r| <= |s|
    ensures forall i :: 0 <= i < |r| ==> p(r[i])
  {
    if s == [] then []
    else
      var rest := Filter(s[1..], p);
      if p(s[0]) then [s[0]] + rest else rest
  }

  /** The filter keeps every element that passes, as often as it occurs,
      and nothing else. */
  lemma {:induction false} FilterMultiset<T(!new)>(s: seq<T>, p: T -> bool)
    ensures forall x :: multiset(Filter(s, p))[x] == if p(x) then multiset(s)[x] else 0
  {
    if s != [] {
      FilterMultiset(s[1..], p);
      assert s == [s[0]] + s[1..];
    }
  }

  /** The filter keeps the order of what it keeps. */
  lemma {:induction false} FilterSubsequence<T(!new)>(s: seq<T>, p: T -> bool)
    ensures Subsequence(Filter(s, p), s)
  {
    if s != [] {
      FilterSubsequence(s[1..], p);
      var rest := Filter(s[1..], p);
      if p(s[0]) {
        assert ([s[0]] + rest)[1..] == rest;
      } else {
        SubsequenceSkip(rest, s[1..], s[0]);
        assert [s[0]] + s[1..] == s;
      }
    }
  }

  lemma {:induction false} SubsequenceSkip<T>(s: seq<T>, t: seq<T>, x: T)
    requires Subsequence(s, t)
    ensures Subsequence(s, [x] + t)
    decreases |s| + |t|, 1
  {
    assert ([x] + t)[1..] == t;
    if s != [] && s[0] == x {
      SubsequenceDrop(s, t);
    }
  }

  lemma {:induction false} SubsequenceDrop<T>(s: seq<T>, t: seq<T>)
    requires s != [] && Subsequence(s, t)
    ensures Subsequence(s[1..], t)
    decreases |s| + |t|, 0
  {
    assert [t[0]] + t[1..] == t;
    if s[0] == t[0] {
      SubsequenceSkip(s[1..], t[1..], t[0]);
    } else {
      SubsequenceDrop(s, t[1..]);
      SubsequenceSkip(s[1..], t[1..], t[0]);
    }
  }

  /** Filtering an already filtered sequence changes nothing. */
  lemma {:induction false} FilterIdempotent<T(!new)>(s: seq<T>, p: T -> bool)
    ensures Filter(Filter(s, p), p) == Filter(s, p)
  {
    if s != [] {
      FilterIdempotent(s[1..], p);
      var rest := Filter(s[1..], p);
      if p(s[0]) {
        assert ([s[0]] + rest)[1..] == rest;
      }
    }
  }

  /** A sequence whose elements all satisfy `p` is its own filter. */
  lemma {:induction false} FilterAll<T(!new)>(s: seq<T>, p: T -> bool)
    requires forall i :: 0 <= i < |s| ==> p(s[i])
    ensures Filter(s, p) == s
  {
    if s != [] {
      FilterAll(s[1..], p);
      assert [s[0]] + s[1..] == s;
    }
  }

  /** Filtering a sequence extended by one element extends the filtered
      sequence by that element exactly when it passes. */
  lemma {:induction false} FilterSnoc<T(!new)>(s: seq<T>, x: T, p: T -> bool)
    ensures Filter(s + [x], p) == Filter(s, p) + (if p(x) then [x] else [])
  {
    if s == [] {
      assert [] + [x] == [x];
      assert [x][1..] == [];
    } else {
      var t, e := s + [x], if p(x) then [x] else [];
      assert t[0] == s[0] && t[1..] == s[1..] + [x];
      FilterSnoc(s[1..], x, p);
      var rest := Filter(s[1..], p);
      if p(s[0]) {
        assert Filter(t, p) == [s[0]] + (rest + e);
        assert [s[0]] + (rest + e) == ([s[0]] + rest) + e;
      } else {
        assert Filter(t, p) == rest + e;
      }
    }
  }

  /** No element occurs twice. */
  predicate Distinct<T(==)>(s: seq<T>)
  {
    forall i, j :: 0 <= i < j < |s| ==> s[i] != s[j]
  }

  /** Position of the first occurrence of `x` in `s`. */
  function FirstIndex<T(==)>(s: seq<T>, x: T): (k: nat)
    requires x in s
    ensures k < |s| && s[k] == x && x !in s[..k]
  {
    if s[0] == x then 0 else 1 + FirstIndex(s[1..], x)
  }

  lemma {:induction false} FirstIndexPrefix<T>(s: seq<T>, t: seq<T>, x: T)
    requires x in s
    ensures FirstIndex(s + t, x) == FirstIndex(s, x)
  {
    if s[0] != x {
      assert (s + t)[1..] == s[1..] + t;
      FirstIndexPrefix(s[1..], t, x);
    }
  }

  lemma {:induction false} FirstIndexAfter<T>(s: seq<T>, x: T)
    requires x !in s
    ensures FirstIndex(s + [x], x) == |s|
  {
    if s != [] {
      assert (s + [x])[1..] == s[1..] + [x];
      FirstIndexAfter(s[1..], x);
    }
  }

  /** `[...new Set(s)]`: each value once, at the place it first occurs. */
  function Dedup<T(==,!new)>(s: seq<T>): (r: seq<T>)
    ensures Distinct(r)
    ensures forall x :: x in r <==> x in s
    ensures |r| <= |s|
  {
    if s == [] then []
    else
      var init, last := s[..|s| - 1], s[|s| - 1];
      assert s == init + [last];
      var d := Dedup(init);
      if last in d then d else d + [last]
  }

  /** The de-duplicated values appear in the order of their first occurrences. */
  lemma {:induction false} DedupOrder<T(!new)>(s: seq<T>)
    ensures forall i, j :: 0 <= i < j < |Dedup(s)| ==>
              FirstIndex(s, Dedup(s)[i]) < FirstIndex(s, Dedup(s)[j])
  {
    if s != [] {
      var init, last := s[..|s| - 1], s[|s| - 1];
      assert s == init + [last];
      DedupOrder(init);
      var d := Dedup(init);
      forall x | x in init
        ensures FirstIndex(s, x) == FirstIndex(init, x) < |init|
      {
        FirstIndexPrefix(init, [last], x);
      }
      if last !in d {
        FirstIndexAfter(init, last);
        assert Dedup(s) == d + [last];
      } else {
        assert Dedup(s) == d;
      }
    }
  }

  /** Removing the same element from both sides keeps two sequences
      permutations of each other. */
  lemma RemoveMatching<T>(s: seq<T>, x: T, t: seq<T>, j: nat)
    requires multiset(s + [x]) == multiset(t) && j < |t| && t[j] == x
    ensures multiset(s) == multiset(t[..j] + t[j + 1..])
  {
    var before, after := t[..j], t[j + 1..];
    assert t == before + [x] + after;
    assert multiset(t) == multiset(before + after) + multiset{x};
    assert multiset(s + [x]) == multiset(s) + multiset{x};
    forall y ensures multiset(s)[y] == multiset(before + after)[y] {
      assert (multiset(s) + multiset{x})[y] == (multiset(before + after) + multiset{x})[y];
    }
  }
}

=== FILE: session.dfy ===
/** The inventory session: the five pieces of state the tracker keeps
    (items, action log, logged-in user, selected store, sort configuration)
    and the event handlers that update them, each run to completion. */
module Tracker {
  import opened Wrappers
  import opened Directory
  import opened Items
  import opened AuditLog
  import opened Query

  /** The `stock_update` action the map callback of `addStock` logs for one item. */
  function StockAction(x: Item, id: int, amount: int): seq<Action>
  {
    if x.id == id then [StockChanged(x.name, amount, Clamp(x.quantity + amount))] else []
  }

  /** A matching item logs exactly one entry, whose new total is the quantity
      the callback gives the item; any other item logs nothing. */
  lemma StockActionRecordsChange(x: Item, id: int, amount: int)
    ensures x.id != id ==> StockAction(x, id, amount) == [] && AdjustOne(x, id, amount) == x
    ensures x.id == id ==>
              StockAction(x, id, amount) == [StockChanged(x.name, amount, AdjustOne(x, id, amount).quantity)]
  {
  }

  /** The `stock_update` actions `addStock` logs: one per matching item, in list order. */
  function StockUpdates(items: seq<Item>, id: int, amount: int): (r: seq<Action>)
    ensures |r| <= |items|
    ensures r == [] <==> forall i :: 0 <= i < |items| ==> items[i].id != id
    ensures forall k :: 0 <= k < |r| ==> r[k].StockChanged? && r[k].amount == amount && r[k].newTotal >= 0
  {
    if items == [] then []
    else
      var init, x := items[..|items| - 1], items[|items| - 1];
      assert forall i :: 0 <= i < |init| ==> init[i] == items[i];
      StockUpdates(init, id, amount) + StockAction(x, id, amount)
  }

  lemma StockUpdatesStep(items: seq<Item>, i: nat, id: int, amount: int)
    requires i < |items|
    ensures StockUpdates(items[..i + 1], id, amount) == StockUpdates(items[..i], id, amount) + StockAction(items[i], id, amount)
  {
    assert items[..i + 1][..i] == items[..i];
  }

  /** With unique ids, a known id yields exactly one entry, carrying the new total. */
  lemma {:induction false} StockUpdatesUnique(items: seq<Item>, id: int, amount: int, k: nat)
    requires UniqueIds(items) && k < |items| && items[k].id == id
    ensures StockUpdates(items, id, amount)
         == [StockChanged(items[k].name, amount, Clamp(items[k].quantity + amount))]
  {
    var init := items[..|items| - 1];
    if k == |items| - 1 {
      assert forall i :: 0 <= i < |init| ==> init[i].id != id;
    } else {
      assert UniqueIds(init);
      StockUpdatesUnique(init, id, amount, k);
    }
  }

  /** The `price_update` action the map callback of `updatePrice` logs for one item. */
  function PriceAction(x: Item, id: int, parsed: Option<real>): seq<Action>
  {
    if x.id == id then [PriceUpdated(x.name, NewPrice(x.price, parsed))] else []
  }

  /** A matching item logs exactly one entry, carrying the price the
      callback gives the item; any other item logs nothing. */
  lemma PriceActionRecordsChange(x: Item, id: int, parsed: Option<real>)
    ensures x.id != id ==> PriceAction(x, id, parsed) == [] && RepriceOne(x, id, parsed) == x
    ensures x.id == id ==>
              PriceAction(x, id, parsed) == [PriceUpdated(x.name, RepriceOne(x, id, parsed).price)]
  {
  }

  /** The `price_update` actions `updatePrice` logs: one per matching item, in list order. */
  function PriceUpdates(items: seq<Item>, id: int, parsed: Option<real>): (r: seq<Action>)
    ensures |r| <= |items|
    ensures r == [] <==> forall i :: 0 <= i < |items| ==> items[i].id != id
    ensures forall k :: 0 <= k < |r| ==> r[k].PriceUpdated?
    ensures parsed.Some? && parsed.value != 0.0 ==> forall k :: 0 <= k < |r| ==> r[k].newPrice == parsed.value
  {
    if items == [] then []
    else
      var init, x := items[..|items| - 1], items[|items| - 1];
      assert forall i :: 0 <= i < |init| ==> init[i] == items[i];
      PriceUpdates(init, id, parsed) + PriceAction(x, id, parsed)
  }

  lemma PriceUpdatesStep(items: seq<Item>, i: nat, id: int, parsed: Option<real>)
    requires i < |items|
    ensures PriceUpdates(items[..i + 1], id, parsed) == PriceUpdates(items[..i], id, parsed) + PriceAction(items[i], id, parsed)
  {
    assert items[..i + 1][..i] == items[..i];
  }

  /** With unique ids, a known id yields exactly one entry, carrying the price kept. */
  lemma {:induction false} PriceUpdatesUnique(items: seq<Item>, id: int, parsed: Option<real>, k: nat)
    requires UniqueIds(items) && k < |items| && items[k].id == id
    ensures PriceUpdates(items, id, parsed) == [PriceUpdated(items[k].name, NewPrice(items[k].price, parsed))]
  {
    var init := items[..|items| - 1];
    if k == |items| - 1 {
      assert forall i :: 0 <= i < |init| ==> init[i].id != id;
    } else {
      assert UniqueIds(init);
      PriceUpdatesUnique(init, id, parsed, k);
    }
  }

  /** Regrouping a concatenation, used to extend the log one callback at a time. */
  /** Every entry `addStock` logs is a `stock_update`, and every entry
      `updatePrice` logs is a `price_update`. */
  lemma UpdateKinds(items: seq<Item>, id: int, amount: int, parsed: Option<real>)
    ensures forall k :: 0 <= k < |StockUpdates(items, id, amount)| ==>
              Kind(StockUpdates(items, id, amount)[k]) == "stock_update"
    ensures forall k :: 0 <= k < |PriceUpdates(items, id, parsed)| ==>
              Kind(PriceUpdates(items, id, parsed)[k]) == "price_update"
  {
  }

  lemma SeqAssoc<T>(a: seq<T>, b: seq<T>, c: seq<T>)
    ensures (a + b) + c == a + (b + c)
  {
  }

  /** The selected store, once there is one, is a listed store; while
      someone is logged in a store is selected, and a non-owner's selected
      store is their own. */
  predicate Consistent(user: Option<User>, selectedStore: Option<int>)
  {
    && (selectedStore.Some? ==> KnownStore(selectedStore.value))
    && (user.Some? ==>
          && selectedStore.Some?
          && (user.value.role != Owner ==> selectedStore == user.value.storeId))
  }

  class Session {
    var items: seq<Item>
    var actionLogs: seq<LogEntry>
    var user: Option<User>
    var selectedStore: Option<int>
    var sortConfig: SortConfig

    ghost predicate Valid()
      reads this
    {
      Consistent(user, selectedStore)
    }

    /** Start-up: the saved item list and log when present, else the seed
        items and an empty log; nobody logged in. */
    constructor (savedItems: Option<seq<Item>>, savedLogs: Option<seq<LogEntry>>)
      ensures Valid()
      ensures items == (if savedItems.Some? then savedItems.value else SEED_ITEMS)
      ensures actionLogs == (if savedLogs.Some? then savedLogs.value else [])
      ensures user.None? && selectedStore.None? && sortConfig == INITIAL_SORT
    {
      items := if savedItems.Some? then savedItems.value else SEED_ITEMS;
      actionLogs := if savedLogs.Some? then savedLogs.value else [];
      user := None;
      selectedStore := None;
      sortConfig := INITIAL_SORT;
    }

    /** `logAction`: one entry for the logged-in user and the selected store;
        nothing when nobody is logged in. */
    method LogAction(action: Action, now: string)
      requires Valid()
      modifies this
      ensures Valid()
      ensures user == old(user) && selectedStore == old(selectedStore)
      ensures items == old(items) && sortConfig == old(sortConfig)
      ensures user.Some? ==>
                actionLogs == old(actionLogs) + [LogEntry(now, user.value.username, action, InStore(selectedStore.value))]
      ensures user.None? ==> actionLogs == old(actionLogs)
    {
      if user.Some? {
        actionLogs := actionLogs + [LogEntry(now, user.value.username, action, InStore(selectedStore.value))];
      }
    }

    /** `handleLogin` followed by the default-store effect. */
    method Login(username: string, password: string, now: string) returns (ok: bool)
      requires Valid()
      modifies this
      ensures Valid()
      ensures ok <==> exists i :: 0 <= i < |USERS| && Credentials(USERS[i], username, password)
      ensures ok ==>
                var u := FindUser(USERS, username, password).value;
                && user == Some(u)
                && selectedStore == DefaultStore(u)
                && actionLogs == old(actionLogs) + [LogEntry(now, u.username, LoggedIn(u.username), LoginScope(u))]
      ensures !ok ==> user == old(user) && selectedStore == old(selectedStore) && actionLogs == old(actionLogs)
      ensures items == old(items) && sortConfig == old(sortConfig)
    {
      var found := FindUser(USERS, username, password);
      LoginSelectsStore(username, password);
      ok := found.Some?;
      if ok {
        var u := found.value;
        user := Some(u);
        selectedStore := DefaultStore(u);
        actionLogs := actionLogs + [LogEntry(now, u.username, LoggedIn(u.username), LoginScope(u))];
      }
    }

    /** `handleLogout`: logs the logout and ends the session; the selected
        store is left as it was. */
    method Logout(now: string)
      requires Valid()
      modifies this
      ensures Valid() && user.None?
      ensures old(user).Some? ==>
                actionLogs == old(actionLogs)
                  + [LogEntry(now, old(user).value.username, LoggedOut(old(user).value.username), InStore(old(selectedStore).value))]
      ensures old(user).None? ==> actionLogs == old(actionLogs)
      ensures items == old(items) && selectedStore == old(selectedStore) && sortConfig == old(sortConfig)
    {
      if user.Some? {
        LogAction(LoggedOut(user.value.username), now);
        user := None;
      }
    }

    /** The store selector, shown to the owner only and offering the listed
        stores; for anyone else the selection cannot change. */
    method SelectStore(id: int)
      requires Valid() && KnownStore(id)
      modifies this
      ensures Valid()
      ensures user.Some? && CanSelectStore(user.value.role) ==> selectedStore == Some(id)
      ensures !(user.Some? && CanSelectStore(user.value.role)) ==> selectedStore == old(selectedStore)
      ensures user == old(user) && items == old(items) && actionLogs == old(actionLogs) && sortConfig == old(sortConfig)
    {
      if user.Some? && CanSelectStore(user.value.role) {
        selectedStore := Some(id);
      }
    }

    /** The map callback of `addStock` for one item. */
    method StockCallback(x: Item, id: int, amount: int, now: string) returns (y: Item)
      requires Valid()
      modifies this
      ensures Valid()
      ensures y == AdjustOne(x, id, amount)
      ensures actionLogs == old(actionLogs) + Logged(user, selectedStore, StockAction(x, id, amount), now)
      ensures items == old(items) && user == old(user)
      ensures selectedStore == old(selectedStore) && sortConfig == old(sortConfig)
    {
      if x.id == id {
        var newQuantity := Clamp(x.quantity + amount);
        LogAction(StockChanged(x.name, amount, newQuantity), now);
        y := x.(quantity := newQuantity);
      } else {
        y := x;
      }
    }

    /** `addStock`: rebuilds the list with the matching items' quantities
        changed by `amount` and floored at 0, logging each change. */
    method AddStock(id: int, amount: int, now: string)
      requires Valid()
      modifies this
      ensures Valid()
      ensures items == AdjustQuantity(old(items), id, amount)
      ensures actionLogs == old(actionLogs) + Logged(user, selectedStore, StockUpdates(old(items), id, amount), now)
      ensures user == old(user) && selectedStore == old(selectedStore) && sortConfig == old(sortConfig)
    {
      var current, next: seq<Item> := items, [];
      ghost var u, st := user, selectedStore;
      ghost var acts: seq<Action> := [];
      for i := 0 to |current|
        invariant Valid()
        invariant items == current && user == u && selectedStore == st && sortConfig == old(sortConfig)
        invariant next == AdjustQuantity(current[..i], id, amount)
        invariant acts == StockUpdates(current[..i], id, amount)
        invariant actionLogs == old(actionLogs) + Logged(u, st, acts, now)
      {
        StockUpdatesStep(current, i, id, amount);
        AdjustQuantityStep(current, i, id, amount);
        LoggedConcat(u, st, acts, StockAction(current[i], id, amount), now);
        var y := StockCallback(current[i], id, amount, now);
        SeqAssoc(old(actionLogs), Logged(u, st, acts, now), Logged(u, st, StockAction(current[i], id, amount), now));
        acts := acts + StockAction(current[i], id, amount);
        next := next + [y];
      }
      assert current[..|current|] == current;
      items := next;
    }

    /** The map callback of `updatePrice` for one item. */
    method PriceCallback(x: Item, id: int, parsed: Option<real>, now: string) returns (y: Item)
      requires Valid()
      modifies this
      ensures Valid()
      ensures y == RepriceOne(x, id, parsed)
      ensures actionLogs == old(actionLogs) + Logged(user, selectedStore, PriceAction(x, id, parsed), now)
      ensures items == old(items) && user == old(user)
      ensures selectedStore == old(selectedStore) && sortConfig == old(sortConfig)
    {
      if x.id == id {
        var updatedPrice := NewPrice(x.price, parsed);
        LogAction(PriceUpdated(x.name, updatedPrice), now);
        y := x.(price := updatedPrice);
      } else {
        y := x;
      }
    }

    /** `updatePrice`: rebuilds the list with the matching items' prices set
        to the parsed value, or kept when it is NaN or zero, logging each. */
    method UpdatePrice(id: int, parsed: Option<real>, now: string)
      requires Valid()
      modifies this
      ensures Valid()
      ensures items == Reprice(old(items), id, parsed)
      ensures actionLogs == old(actionLogs) + Logged(user, selectedStore, PriceUpdates(old(items), id, parsed), now)
      ensures user == old(user) && selectedStore == old(selectedStore) && sortConfig == old(sortConfig)
    {
      var current, next: seq<Item> := items, [];
      ghost var u, st := user, selectedStore;
      ghost var acts: seq<Action> := [];
      for i := 0 to |current|
        invariant Valid()
        invariant items == current && user == u && selectedStore == st && sortConfig == old(sortConfig)
        invariant next == Reprice(current[..i], id, parsed)
        invariant acts == PriceUpdates(current[..i], id, parsed)
        invariant actionLogs == old(actionLogs) + Logged(u, st, acts, now)
      {
        PriceUpdatesStep(current, i, id, parsed);
        RepriceStep(current, i, id, parsed);
        LoggedConcat(u, st, acts, PriceAction(current[i], id, parsed), now);
        var y := PriceCallback(current[i], id, parsed, now);
        SeqAssoc(old(actionLogs), Logged(u, st, acts, now), Logged(u, st, PriceAction(current[i], id, parsed), now));
        acts := acts + PriceAction(current[i], id, parsed);
        next := next + [y];
      }
      assert current[..|current|] == current;
      items := next;
    }

    /** `handleAddItem`: with every form field filled in, appends one item in
        the selected store and logs `item_added`; otherwise does nothing.
        Reachable only from the logged-in view. */
    method AddItem(form: NewItemForm, quantity: int, minThreshold: int, price: real, freshId: int, now: string)
      requires Valid() && user.Some?
      modifies this
      ensures Valid()
      ensures user == old(user) && selectedStore == old(selectedStore) && sortConfig == old(sortConfig)
      ensures Complete(form) ==>
                && items == old(items) + [MakeItem(form, freshId, quantity, minThreshold, price, selectedStore.value)]
                && actionLogs == old(actionLogs)
                     + [LogEntry(now, user.value.username, ItemAdded(form.name, StoreName(STORES, selectedStore.value)),
                                 InStore(selectedStore.value))]
      ensures !Complete(form) ==> items == old(items) && actionLogs == old(actionLogs)
      ensures Complete(form) ==>
                && KnownStore(items[|items| - 1].storeId)
                && StoreName(STORES, items[|items| - 1].storeId).Some?
    {
      if Complete(form) {
        var store := selectedStore.value;
        items := items + [MakeItem(form, freshId, quantity, minThreshold, price, store)];
        LogAction(ItemAdded(form.name, StoreName(STORES, store)), now);
      }
    }

    /** `handleSort`. */
    method HandleSort(key: SortKey)
      requires Valid()
      modifies this
      ensures Valid()
      ensures sortConfig == NextSort(old(sortConfig), key)
      ensures user == old(user) && selectedStore == old(selectedStore)
      ensures items == old(items) && actionLogs == old(actionLogs)
    {
      sortConfig := NextSort(sortConfig, key);
    }

    /** The item table: for a non-owner, only items of their own store. */
    function View(search: string, category: string): (r: seq<Item>)
      reads this
      requires Valid() && user.Some?
      ensures forall i :: 0 <= i < |r| ==> Some(r[i].storeId) == selectedStore
      ensures user.value.role != Owner ==> forall i :: 0 <= i < |r| ==> Some(r[i].storeId) == user.value.storeId
    {
      VisibleItems(items, selectedStore.value, search, category, sortConfig)
    }

    /** The activity log panel: all entries for the owner, the own store's otherwise. */
    function Logs(): (r: seq<LogEntry>)
      reads this
      requires Valid() && user.Some?
      ensures user.value.role == Owner ==> r == actionLogs
      ensures user.value.role != Owner ==>
                forall i :: 0 <= i < |r| ==> r[i].storeId == InStore(user.value.storeId.value)
    {
      VisibleLogs(actionLogs, user.value.role, selectedStore.value)
    }
  }
}

=== FILE: sorting.dfy ===
/** A stable insertion sort parameterised by a "may come first" relation.
    `prec(a, b)` holds when a comparator allows `a` to stay before `b`
    (it does not return a positive number for `(a, b)`). */
module Sorting {

  /** `prec` orders every pair and is transitive, so it is a comparator
      without contradictions. */
  ghost predicate TotalPreorder<T(!new)>(prec: (T, T) -> bool)
  {
    && (forall a, b :: prec(a, b) || prec(b, a))
    && (forall a, b, c :: prec(a, b) && prec(b, c) ==> prec(a, c))
  }

  /** Every element may come before every later one. */
  ghost predicate Sorted<T>(s: seq<T>, prec: (T, T) -> bool)
  {
    forall i, j :: 0 <= i < j < |s| ==> prec(s[i], s[j])
  }

  /** `a` and `b` compare as equal. */
  predicate Tied<T>(prec: (T, T) -> bool, a: T, b: T)
  {
    prec(a, b) && prec(b, a)
  }

  /** Places `x` in front of the first element it may precede. */
  function Insert<T>(x: T, s: seq<T>, prec: (T, T) -> bool): (r: seq<T>)
    ensures |r| == |s| + 1
    ensures multiset(r) == multiset(s) + multiset{x}
  {
    if s == [] || prec(x, s[0]) then [x] + s
    else
      assert s == [s[0]] + s[1..];
      [s[0]] + Insert(x, s[1..], prec)
  }

  function Sort<T>(s: seq<T>, prec: (T, T) -> bool): (r: seq<T>)
    ensures |r| == |s|
    ensures multiset(r) == multiset(s)
  {
    if s == [] then []
    else
      assert s == [s[0]] + s[1..];
      Insert(s[0], Sort(s[1..], prec), prec)
  }

  lemma {:induction false} InsertSorted<T(!new)>(x: T, s: seq<T>, prec: (T, T) -> bool)
    requires TotalPreorder(prec) && Sorted(s, prec)
    ensures Sorted(Insert(x, s, prec), prec)
  {
    if s == [] || prec(x, s[0]) {
      var r := [x] + s;
      forall i, j | 0 <= i < j < |r| ensures prec(r[i], r[j]) {
        if i == 0 && j > 1 {
          assert prec(s[0], s[j - 1]);
        }
      }
    } else {
      InsertSorted(x, s[1..], prec);
      var tail := Insert(x, s[1..], prec);
      var r := [s[0]] + tail;
      assert prec(s[0], x);
      forall k | 0 <= k < |tail| ensures prec(s[0], tail[k]) {
        assert tail[k] in multiset(tail);
        assert tail[k] in multiset(s[1..]) + multiset{x};
        if tail[k] != x {
          assert tail[k] in s[1..];
          var m :| 0 <= m < |s[1..]| && s[1..][m] == tail[k];
          assert s[m + 1] == tail[k];
        }
      }
      forall i, j | 0 <= i < j < |r| ensures prec(r[i], r[j]) {
        if i == 0 {
          assert r[j] == tail[j - 1];
        } else {
          assert r[i] == tail[i - 1] && r[j] == tail[j - 1];
        }
      }
    }
  }

  /** The sort puts its input in order. */
  lemma {:induction false} SortSorted<T(!new)>(s: seq<T>, prec: (T, T) -> bool)
    requires TotalPreorder(prec)
    ensures Sorted(Sort(s, prec), prec)
  {
    if s != [] {
      SortSorted(s[1..], prec);
      InsertSorted(s[0], Sort(s[1..], prec), prec);
    }
  }

  /** Sorting a sorted sequence gives it back. */
  lemma {:induction false} SortOfSorted<T>(s: seq<T>, prec: (T, T) -> bool)
    requires Sorted(s, prec)
    ensures Sort(s, prec) == s
  {
    if s != [] {
      assert Sorted(s[1..], prec) by {
        forall i, j | 0 <= i < j < |s[1..]| ensures prec(s[1..][i], s[1..][j]) {
          assert s[1..][i] == s[i + 1] && s[1..][j] == s[j + 1];
        }
      }
      SortOfSorted(s[1..], prec);
      if |s| > 1 {
        assert prec(s[0], s[1]);
      }
      assert [s[0]] + s[1..] == s;
    }
  }

  /** The elements of `s` tied with `v`, in their order in `s`. */
  function TiesOf<T>(s: seq<T>, v: T, prec: (T, T) -> bool): seq<T>
  {
    if s == [] then []
    else (if Tied(prec, s[0], v) then [s[0]] else []) + TiesOf(s[1..], v, prec)
  }

  /** The ties within a prefix are a prefix of the ties of the whole. */
  lemma {:induction false} TiesOfPrefix<T>(s: seq<T>, n: nat, v: T, prec: (T, T) -> bool)
    requires n <= |s|
    ensures TiesOf(s[..n], v, prec) <= TiesOf(s, v, prec)
  {
    if n > 0 {
      TiesOfPrefix(s[1..], n - 1, v, prec);
      assert s[..n][1..] == s[1..][..n - 1];
    }
  }

  lemma {:induction false} InsertTies<T(!new)>(x: T, s: seq<T>, v: T, prec: (T, T) -> bool)
    requires TotalPreorder(prec)
    ensures TiesOf(Insert(x, s, prec), v, prec)
         == (if Tied(prec, x, v) then [x] else []) + TiesOf(s, v, prec)
  {
    if s == [] || prec(x, s[0]) {
      assert ([x] + s)[1..] == s;
    } else {
      InsertTies(x, s[1..], v, prec);
      var r := [s[0]] + Insert(x, s[1..], prec);
      assert r[1..] == Insert(x, s[1..], prec);
      // x and s[0] cannot both be tied with v, since x may not precede s[0].
      assert !(Tied(prec, x, v) && Tied(prec, s[0], v));
    }
  }

  /** Stability: elements that compare as equal keep their input order. */
  lemma {:induction false} SortStable<T(!new)>(s: seq<T>, v: T, prec: (T, T) -> bool)
    requires TotalPreorder(prec)
    ensures TiesOf(Sort(s, prec), v, prec) == TiesOf(s, v, prec)
  {
    if s != [] {
      SortStable(s[1..], v, prec);
      InsertTies(s[0], Sort(s[1..], prec), v, prec);
    }
  }

  lemma {:induction false} InsertAgree<T>(x: T, s: seq<T>, p1: (T, T) -> bool, p2: (T, T) -> bool)
    requires forall k :: 0 <= k < |s| ==> p1(x, s[k]) == p2(x, s[k])
    ensures Insert(x, s, p1) == Insert(x, s, p2)
  {
    if s != [] && !p1(x, s[0]) {
      InsertAgree(x, s[1..], p1, p2);
    }
  }

  /** The result depends only on how `prec` compares the elements actually
      present, so two relations that agree on them sort alike. */
  lemma {:induction false} SortAgree<T>(s: seq<T>, p1: (T, T) -> bool, p2: (T, T) -> bool)
    requires forall a, b :: a in s && b in s ==> p1(a, b) == p2(a, b)
    ensures Sort(s, p1) == Sort(s, p2)
  {
    if s != [] {
      SortAgree(s[1..], p1, p2);
      var t := Sort(s[1..], p1);
      forall k | 0 <= k < |t| ensures p1(s[0], t[k]) == p2(s[0], t[k]) {
        assert t[k] in multiset(t);
        assert t[k] in s[1..];
      }
      InsertAgree(s[0], t, p1, p2);
    }
  }
}

=== FILE: text.dfy ===
/** The string operations the inventory view relies on: `toLowerCase`,
    `includes` and the relational `>` on strings. */
module Text {

  /** `toLowerCase` on the ASCII letters; other characters are kept. */
  function LowerChar(c: char): char
  {
    if 'A' <= c <= 'Z' then (c as int + 32) as char else c
  }

  function Lower(s: string): (r: string)
    ensures |r| == |s|
    ensures forall i :: 0 <= i < |s| ==> r[i] == LowerChar(s[i])
  {
    seq(|s|, i requires 0 <= i < |s| => LowerChar(s[i]))
  }

  /** `s.includes(sub)`: `sub` occurs in `s` as a contiguous substring. */
  predicate Contains(s: string, sub: string)
  {
    exists i :: 0 <= i <= |s| && OccursAt(s, sub, i)
  }

  /** `sub` occurs in `s` starting at position `i`. */
  predicate OccursAt(s: string, sub: string, i: nat)
  {
    i + |sub| <= |s| && s[i..i + |sub|] == sub
  }

  /** The empty search text is found in every name. */
  lemma ContainsEmpty(s: string)
    ensures Contains(s, "")
  {
    assert OccursAt(s, "", 0);
  }

  /** `!(a > b)` for JavaScript strings: `a` is lexicographically at most `b`,
      a proper prefix coming first. */
  predicate LexLe(a: string, b: string)
  {
    if a == [] then true
    else if b == [] then false
    else if a[0] != b[0] then a[0] < b[0]
    else LexLe(a[1..], b[1..])
  }

  lemma {:induction false} LexLeTotal(a: string, b: string)
    ensures LexLe(a, b) || LexLe(b, a)
  {
    if a != [] && b != [] && a[0] == b[0] {
      LexLeTotal(a[1..], b[1..]);
    }
  }

  lemma {:induction false} LexLeTransitive(a: string, b: string, c: string)
    requires LexLe(a, b) && LexLe(b, c)
    ensures LexLe(a, c)
  {
    if a != [] && b != [] && c != [] && a[0] == b[0] && b[0] == c[0] {
      LexLeTransitive(a[1..], b[1..], c[1..]);
    }
  }
}

=== FILE: wrappers.dfy ===
/** A value that may be absent: JavaScript's `undefined`/`null`, a failed
    `Array.prototype.find`, or a `parseFloat` that yields NaN. */
module Wrappers {
  datatype Option<+T> = None | Some(value: T)
}
